=== FILE: README.md ===
# Athena CI: a Dafny model of the voice-agent console

Athena CI is a browser console in which a voice agent scans a competitor. The
agent calls a `scan_competitor` tool. The page asks a small Express server for
an executive brief and, in the background, for a deep dossier. A
three.js "black hole" reflects the conversation's state, a loading bar fills
while the brief is pending, and the dossier can be printed as an HTML report.

This project models the logic behind those pieces as pure Dafny functions and
proves what they promise:

- `Types` — the records of `types.ts`: the brief, the dossier and the UI states.
- `Server` — the two routes of `server.js`. It covers the API-key fallback, the
  missing-key and thrown-error answers, the grounding-URI filter, and the
  de-duplicated, first-occurrence-ordered merge of sources capped at eight.
- `GeminiService` — the client service of `geminiService.ts`. `sanitizeBrief`
  turns any loosely shaped answer into a complete brief. The two fetchers
  always answer; failures become defaults or a not-ready dossier.
- `Session` — the page state of `App.tsx`. It covers the session events (start,
  connect, disconnect, error, mode change), the scan tool with its spoken
  script and failure alert, and the `consult_dossier` keyword router.
- `Visual` — `components/BlackHole.tsx`. It covers the state-to-target table,
  the per-frame exponential smoothing of glitch, flow speed and colours, the
  speaking pulse, and the rotations. Every live colour stays in the convex hull
  of the colours its slot is ever given.
- `Progress` — the loading bar of `components/IntelDisplay.tsx`. It covers the
  banded increments, the stutter, the cap and the stage labels.
- `Markdown` and `Report` — `utils/dossierGenerator.ts`. `Markdown` covers the
  three lazy regex passes (`**`, `*` and backticks). `Report` covers section
  rendering, summary-first ordering, numbered sources and the risk-band class.
- `Pipeline` — the pieces composed end to end, from a route's answer to the
  page state and the printed dossier.
- `Wrappers`, `Text`, `Seqs` — helpers. They hold `Option`, ASCII case mapping,
  split and join, decimal numerals, de-duplication and filtering.

The model makes these choices:

- Environment reads, the Gemini and ElevenLabs calls, `fetch`, `JSON.parse`,
  `Math.random`, `Math.sin` and the clock are parameters. A model call either
  answered or threw. A random draw is a real in [0, 1). `sin` is any function
  whose values at the points used lie in [-1, 1].
- Strings are `seq<char>`. JavaScript's `||` on strings is modelled as
  "non-empty, otherwise the fallback". A missing JSON field is `None`.
- Numbers are `real`. Colours keep the [0, 1] channel scale of
  `THREE.Color.set`.

Where the code and its own comments disagree, the model follows the code.

- The loading bar's comment says the final crawl "never stops completely".
  The code gives increment 0 from 99 on, so the bar freezes
  (`Progress.FrozenFrom99`). From 0 it never passes 99.05, so the 99.9 cap
  never binds (`Progress.CapNeverBinds`).
- The black hole's pulse applies the target amplitude directly on every frame.
  It is not smoothed like the other values.
- The event-horizon mesh starts at scale 1.0. It reaches 1.02 only through
  the pulse or the return-to-base blend.

## Model

| member | source | states |
|---|---|---|
| Server.ApiKey | server.js:14 | the key is `GEMINI_API_KEY` whenever that is non-empty, otherwise `API_KEY` if non-empty; it is never empty, always one of the two, and absent exactly when both are missing or empty |
| Server.ErrorText | server.js:183 | the error text is the thrown message when it is non-empty and "Server Error" otherwise; it is never empty |
| Server.BriefRoute | server.js:53-185 | without a key the answer is status 500 with the configuration error, whatever the model would do; otherwise the model's text is passed through unchanged, or status 500 carries a non-empty message |
| Server.WebSources | server.js:266-269 | each kept URI starts with "http"; every chunk with an http URI contributes it; every kept URI comes from such a chunk |
| Server.WebSourcesInOrder | server.js:266-269 | the kept URIs are in chunk order: of two kept, the earlier one's URI occurs before the later one's in the mapped list |
| Server.MergeSources | server.js:271-273 | the merged sources are distinct, at most eight, and all drawn from grounding-then-JSON sources; a source is dropped only when eight are already kept; with `Server.MergeKeepsEarliest` and `Server.MergeFollowsFirstOccurrence`, the kept sources are the first eight distinct ones in grounding-then-JSON order |
| Server.MergeKeepsEarliest | server.js:271-273 | a source occurring before a kept source in grounding-then-JSON order is kept too, so the merge keeps the earliest distinct sources |
| Server.MergeWebFirst | server.js:273 | the first eight distinct grounding URIs open the merged list |
| Server.MergeFollowsFirstOccurrence | server.js:273 | two kept sources appear in the order of their first occurrence in grounding-then-JSON order (both directions) |
| Server.MergeExact | server.js:273 | a duplicate-free combined list of at most eight entries is passed through exactly |
| Server.DossierRoute | server.js:188-286 | the route answers with a body exactly when a key exists and the model answered; the body's sections are the model's (or none); its sources are exactly `MergeSources` of the grounding URIs and the JSON list, hence distinct, at most eight and from those lists; a missing key gives "Configuration Error" |
| Server.MissingKeyShortCircuits | server.js:188-192 | without a key both routes answer the same whatever the model call would have produced |
| GeminiService.OrDefault | geminiService.ts:8 | a field is kept when present and non-empty, else replaced by its default; the result is never empty |
| GeminiService.ListOr | geminiService.ts:24 | an array field is kept when present, else replaced by the empty list |
| GeminiService.SanitizeBrief | geminiService.ts:4-34 | the sanitized brief carries the upper-cased target name; each string field is the parsed value when that is present and non-empty and its own fixed default otherwise (the band's is "MEDIUM"), so none is empty; the three lists are as given or empty |
| GeminiService.SanitizeRoundTrip | geminiService.ts:4-34 | sanitizing a brief read back as raw data returns it unchanged if and only if all its fields are filled and its name is the upper-cased target |
| GeminiService.SanitizeIdempotent | geminiService.ts:4-34 | sanitizing twice gives the same brief as sanitizing once |
| GeminiService.GenerateExecutiveBrief | geminiService.ts:36-55 | the service always yields a complete brief for the upper-cased name; an OK reply yields its body sanitized, a non-OK reply or a throw the all-defaults brief |
| GeminiService.FailedBriefIsAllDefaults | geminiService.ts:51-54 | a failed request yields the default text in every field and empty lists |
| GeminiService.GenerateDeepDossier | geminiService.ts:57-82 | the dossier is ready exactly when the reply was OK; a not-ready dossier is empty; a ready one carries the reply's sections and sources, or empty lists |
| Session.ConnectionErrorText | App.tsx:135 | the error text starts with "Connection Error: ", followed by the error's message or "Unknown" when it has none |
| Session.InitFailedText | App.tsx:151-155 | the initialisation error is the prefix followed by the thrown value's message verbatim, empty included, or by "undefined" when it has none |
| Session.InitFailedTellsAbsentFromEmpty | App.tsx:154 | with no `||` fallback an absent message and an empty one give different texts, while the connection error shows "Unknown" for both |
| Session.ApplyFrame | App.tsx:107-155 | every event changes only the state fields it writes; every other field keeps its value |
| Session.StartClearsSession | App.tsx:107-112 | starting a conversation shows THINKING and clears the brief, the dossier and the scan label |
| Session.CallbacksGoIdle | App.tsx:120-139 | connect, disconnect and error all return to IDLE; connect sets the connection flag and disconnect clears it, while an error leaves it; disconnect and error clear the brief and dossier; an error records the connection error text |
| Session.ModeChangeRule | App.tsx:140-146 | mode "speaking" shows SPEAKING and "listening" shows LISTENING; any other mode leaves the state unchanged |
| Session.ApplyKeepsInv | App.tsx:32-155 | every event preserves the invariant: the scan label is upper case and a mount error carries one of the two prefixes |
| Session.RunKeepsInv | App.tsx:32-155 | the invariant holds after any sequence of events |
| Session.InitialInv | App.tsx:17-23 | the initial state satisfies the invariant |
| Session.FailureAlert | App.tsx:76 | the alert has the fixed prefix and suffix around the thrown message, or "Unknown Server Error" when the message is empty |
| Session.ScanCompetitor | App.tsx:32-78 | a scan always clears the label and the dossier and keeps the connection state; a delivered brief is shown with SPEAKING and answered by the script; a throw returns to IDLE, keeps the old brief and answers with the failure alert |
| Session.ScanInProgress | App.tsx:34-36 | while the scan is pending the page shows ANALYZING and the upper-cased name, has no dossier, and the visual's glitch pass is on |
| Session.ScanDeliveredSpeaks | components/BlackHole.tsx:440-451 | after a delivered brief the visual targets the speaking pulse of 0.8 with no glitch |
| Session.ScriptLines | App.tsx:52-70 | the spoken script has nineteen lines |
| Session.ScriptReadsTwoWatchlistItems | App.tsx:65 | the script depends on the first two watchlist entries only |
| Session.ScriptResolvingSignals | App.tsx:68-69 | the resolving-signals line is empty for band HIGH and lists the resolving signals otherwise |
| Session.ScriptIgnoresNameIntentEvidence | App.tsx:52-70 | the script does not depend on the target name, the intent or the evidence |
| Session.ScriptSplitsIntoLines | App.tsx:52-70 | when every field is one line, splitting the script at newlines gives back exactly its nineteen lines |
| Session.ScriptLinesAreLines | App.tsx:52-70 | when every field is one line, no script line contains a newline |
| Session.ListsAreOneLine | App.tsx:65-69 | the joined watchlist and resolving signals contain no newline when their entries contain none |
| Session.Classify | App.tsx:87-101 | the route is evidence iff the query mentions an evidence word; risk iff it mentions a risk word but no evidence word; strategy and summary likewise, in that priority |
| Session.MentionsOfThree | App.tsx:90 | mentioning one of three words is the disjunction of the three `includes` tests |
| Session.SignalLines | App.tsx:91 | each signal becomes one "bucket: content" line, in order |
| Session.ConsultDossier | App.tsx:81-105 | without a brief the reply is the fixed "No active dossier" text; with one the reply starts with the header of the route chosen for the lower-cased topic and continues with that route's body |
| Session.RouteIsVisible | App.tsx:90-104 | the reply starts with a route's header if and only if that route was chosen |
| Session.ConsultIgnoresCase | App.tsx:87 | upper- or lower-casing the topic does not change the reply |
| Session.EvidenceListsEverySignal | App.tsx:90-93 | on the evidence route, the text after the header splits into exactly one line per key signal |
| Session.SummaryReportsCount | App.tsx:104 | on the summary route the reply names the number of key signals as a decimal numeral |
| Progress.Increment | components/IntelDisplay.tsx:32-42 | the increment lies in [1.5, 2.5) below 40, [0.5, 1) below 70, [0.2, 0.4) below 85, is 0.05 below 99 and 0 from 99 on |
| Progress.Tick | components/IntelDisplay.tsx:44-47 | a tick never passes the cap, never moves an in-range bar back, and leaves the bar in place on a stutter |
| Progress.FrozenFrom99 | components/IntelDisplay.tsx:40-47 | from 99 on a tick leaves the bar unchanged |
| Progress.CapNeverBinds | components/IntelDisplay.tsx:47 | below 99.05 a tick adds exactly its increment and stays below 99.05 |
| Progress.TickAdvances | components/IntelDisplay.tsx:34-42 | below 99, a tick without a stutter advances the bar by at least 0.05 |
| Progress.RunMonotoneBounded | components/IntelDisplay.tsx:25-48 | over any ticks the bar never moves back, never passes the cap, and from below 99.05 stays below 99.05 |
| Progress.RunReaches | components/IntelDisplay.tsx:25-48 | without stutters, n ticks bring the bar to at least min(p + 0.05 n, 99) |
| Progress.StageOf | components/IntelDisplay.tsx:51-54 | each of the four labels is shown exactly on its band: below 30, from 30 below 60, from 60 below 85, from 85 on |
| Progress.StageMonotone | components/IntelDisplay.tsx:51-54 | a larger value never shows an earlier label |
| Progress.RunStageMonotone | components/IntelDisplay.tsx:47-54 | the label never goes back while the bar runs |
| Progress.Restart | components/IntelDisplay.tsx:20-23 | when loading begins the value resets to 0 and the label is kept; otherwise nothing changes |
| Progress.TickLoader | components/IntelDisplay.tsx:47-54 | after a tick the label always matches the value, and the value is at most the cap |
| Progress.LoaderFollowsRun | components/IntelDisplay.tsx:20-56 | after any ticks the component shows the value of the pure tick run and that value's label |
| Markdown.CloseAt | utils/dossierGenerator.ts:10-12 | the closing delimiter found is the first one on the same line, and nothing before it closes; when none is found, no delimiter starts at any position the group could reach without crossing a line terminator |
| Markdown.MatchAt | utils/dossierGenerator.ts:10-12 | a match's two delimiters and body fit within the text |
| Markdown.MatchAtSpans | utils/dossierGenerator.ts:10-12 | a match is an opening delimiter, a body without line terminators and a closing delimiter |
| Markdown.MatchAtFirstClose | utils/dossierGenerator.ts:10-12 | the lazy group stops at the first closing delimiter: none starts inside the body |
| Markdown.MatchAtNone | utils/dossierGenerator.ts:10-12 | there is no match exactly when the text does not open with the delimiter or no closing delimiter is reachable on the same line |
| Markdown.RewriteAbsent | utils/dossierGenerator.ts:9-12 | text with no match of a pass is left unchanged by that pass |
| Markdown.PlainTextUnchanged | utils/dossierGenerator.ts:8-14 | text with no `*` and no backtick is rendered verbatim |
| Markdown.RewriteWraps | utils/dossierGenerator.ts:10-12 | a delimited span whose body holds no delimiter and no line break becomes exactly one element around the body |
| Markdown.LaterPassesUnchanged | utils/dossierGenerator.ts:11-12 | text without `*` and backticks passes the italic and code passes unchanged |
| Markdown.ElementAvoids | utils/dossierGenerator.ts:10-12 | an element's tags add no `*`, backtick or line break to its body |
| Markdown.BoldBeforeItalic | utils/dossierGenerator.ts:10-11 | `**x**` with plain x renders as strong, never as nested emphasis |
| Markdown.ItalicWraps | utils/dossierGenerator.ts:11 | `*x*` with plain x renders as em, the empty body included |
| Markdown.EmptyItalic | utils/dossierGenerator.ts:10-11 | `**` alone is no bold match and renders as an empty em element |
| Markdown.CloseAtStopsAtLine | utils/dossierGenerator.ts:10-12 | a closing delimiter is never searched past a line break |
| Markdown.MatchAtStopsAtLine | utils/dossierGenerator.ts:10-12 | no match spans a line break |
| Markdown.RewriteByLine | utils/dossierGenerator.ts:10-12 | each pass rewrites the lines separately: rewriting text joined at a line break equals joining the rewritten parts |
| Markdown.ParseByLine | utils/dossierGenerator.ts:8-14 | rendering text joined at a line break equals joining the rendered parts |
| Report.RenderSection | utils/dossierGenerator.ts:16-44 | a section keeps its heading, renders every paragraph through the markdown passes in order, and has a metrics block exactly when it has metrics |
| Report.PlainParagraphsVerbatim | utils/dossierGenerator.ts:25-27 | paragraphs without markdown characters are printed verbatim |
| Report.RenderedInPrintOrder | utils/dossierGenerator.ts:287-290 | the i-th printed section is the i-th in print order, under "Executive Judgment" exactly when it is a summary and under its own title otherwise |
| Report.EachSectionOnce | utils/dossierGenerator.ts:287-290 | the print order is a permutation of the sections: each is printed exactly once |
| Report.SummariesFirst | utils/dossierGenerator.ts:287-290 | a printed section is a summary if and only if it comes before the first non-summary |
| Report.GroupsKeepOrder | utils/dossierGenerator.ts:287-290 | two printed sections of the same group (both summaries or both not) occur in the dossier in the order they are printed |
| Report.NoSummaryKeepsOrder | utils/dossierGenerator.ts:290 | without summaries the sections print in their given order |
| Report.SourceList | utils/dossierGenerator.ts:295-299 | the i-th source is linked to its URL and numbered i + 1 |
| Report.BracketedReadsBack | utils/dossierGenerator.ts:297 | a bracketed source number reads back as the number itself |
| Report.BracketedInjective | utils/dossierGenerator.ts:297 | different numbers give different bracketed labels |
| Report.SourceNumberReadsBack | utils/dossierGenerator.ts:295-299 | the numeral of the i-th source reads back as i + 1 |
| Report.SourceNumbersDistinct | utils/dossierGenerator.ts:295-299 | no two sources in the list share a number |
| Report.BandClass | utils/dossierGenerator.ts:275 | the class is "color-high" iff the band is HIGH, "color-medium" iff MEDIUM, and "color-low" otherwise |
| Report.GenerateDossier | utils/dossierGenerator.ts:263-299 | the document is headed by the target name, shows the context label and the intent kind, the band with " RISK" and its class; its sections are the rendered print order (`Report.RenderedInPrintOrder`) and its sources the numbered list (`Report.SourceList`), one entry per section and per source |
| Visual.Hex | components/BlackHole.tsx:325-328 | a 24-bit colour literal decodes to channels in [0, 1] |
| Visual.HexRoundTrip | components/BlackHole.tsx:429-473 | the 24-bit value reads back from the decoded colour |
| Visual.TargetsFor | components/BlackHole.tsx:425-481 | the glitch pass is on iff the state is ANALYZING or THINKING, the glitch target is 0.3 then and 0 otherwise, the pulse is 0.2 listening, 0.8 speaking and 0 otherwise, and the flow speed lies in [0.1, 0.8] |
| Visual.DefaultIsIdle | components/BlackHole.tsx:453-479 | an unknown value gets the IDLE bundle, and ANALYZING and THINKING share one bundle |
| Visual.Mount | components/BlackHole.tsx:483-484 | mounting starts from the initial live values with the current state's targets |
| Visual.Retarget | components/BlackHole.tsx:516-521 | a state change replaces the targets and leaves every live value untouched |
| Visual.RetargetLastWins | components/BlackHole.tsx:516-521 | the last state change wins, and repeating one changes nothing |
| Visual.Approach | components/BlackHole.tsx:389-395 | a smoothing step scales the gap to the target by 1 - k |
| Visual.ApproachBetween | components/BlackHole.tsx:389-401 | for k in [0, 1] a smoothing step lands between the old value and the target, and the gap does not grow |
| Visual.ApproachOvershoots | components/BlackHole.tsx:389-395 | a step with k > 1 (a long frame) overshoots the target |
| Visual.ApproachColor | components/BlackHole.tsx:398-401 | each channel's gap to the target colour is scaled by 1 - k |
| Visual.ApproachPalette | components/BlackHole.tsx:398-401 | each colour stop approaches its own target |
| Visual.Animate | components/BlackHole.tsx:386-417 | a frame keeps the targets and moves the live values as `Visual.Frame` states, with the sine taken at `6 * elapsed` |
| Visual.Frame | components/BlackHole.tsx:386-417 | a frame scales the glitch gap by 1 - 5 delta and the flow gap by 1 - 2 delta, blends the palette by `2 * delta`, sets the core to 1 + 0.1 sine times the amplitude and keeps the horizon 0.02 above it while pulsing, turns the disk by 0.4 delta times the new flow speed and the stars by 0.02 delta |
| Visual.SphereScale | components/BlackHole.tsx:404-412 | with a positive amplitude a sphere sits at its rest size plus 0.1 sine times the amplitude; otherwise its gap to the rest size shrinks by the factor 1 - 5 delta |
| Visual.Turn | components/BlackHole.tsx:416 | the disk turns by 0.4 delta times the flow speed |
| Visual.FrameSettles | components/BlackHole.tsx:409-412 | without a pulse both sphere scales close their gap to 1 and 1.02 by the factor 1 - 5 delta |
| Visual.PulseScale | components/BlackHole.tsx:403-413 | while pulsing with amplitude a the core scale is within 1 +- a/10 and the horizon stays 0.02 above it; otherwise each scale moves toward its rest size (1 and 1.02) without overshooting |
| Visual.SlotPointInHull | components/BlackHole.tsx:325-328 | each colour a slot is ever given is a convex mixture (all weight on itself) of those colours |
| Visual.BlendWeights | components/BlackHole.tsx:398-401 | blending two convex weightings with a factor in [0, 1] gives a convex weighting |
| Visual.MixBlend | components/BlackHole.tsx:398-401 | `lerp` of two mixtures is the mixture of the lerped weights |
| Visual.TablePaletteInHull | components/BlackHole.tsx:429-473 | every table palette lies in the per-slot convex hull of the colours a slot is ever given |
| Visual.InitialPaletteInHull | components/BlackHole.tsx:325-328 | the initial palette lies in that hull |
| Visual.ApproachStaysInHull | components/BlackHole.tsx:398-401 | blending a colour of the hull toward another with a factor in [0, 1] stays in the hull |
| Visual.MountValid | components/BlackHole.tsx:483-484 | the mounted scene is valid |
| Visual.RetargetValid | components/BlackHole.tsx:516-521 | a state change keeps the scene valid |
| Visual.AnimateValid | components/BlackHole.tsx:386-417 | a frame of at most 1/5 s keeps the scene valid: glitch and flow speed in range, colours in their convex hulls, scales bounded |
| Visual.DiskRotationMonotone | components/BlackHole.tsx:416 | on frames of at most 1/5 s the disk never turns backwards, and turns forwards on every such frame with positive duration |
| Visual.LongFrameReversesDisk | components/BlackHole.tsx:365-416 | the 1/5 s bound is needed: a 2 s frame from flow 0.8 toward the computing speed 0.1 overshoots to flow -2 and turns the disk back by 1.6 rad |
| Visual.LongFrameSceneValid | components/BlackHole.tsx:429-521 | the scene of that counterexample (mounted while LISTENING, flow 0.8, switched to THINKING) is valid |
| Visual.RunValid | components/BlackHole.tsx:364-421 | any interleaving of state changes and short frames keeps the scene valid |
| Visual.RunDiskRotationMonotone | components/BlackHole.tsx:416 | over any run whose frames last at most 1/5 s the disk angle does not decrease |
| Visual.RunStarRotation | components/BlackHole.tsx:417 | the stars turn by 0.02 rad per second of simulated time |
| Visual.RunTargetsFollowLastState | components/BlackHole.tsx:516-521 | after a run the targets are those of its last state change |
| Visual.RunKeepsTargets | components/BlackHole.tsx:386-417 | frames alone never change the targets |
| Visual.IterateBetween | components/BlackHole.tsx:389-401 | with a step in [0, 1], every value reached by repeated smoothing toward a held target lies between the start and the target, and the gap never grows from one frame to the next |
| Visual.IterateArrives | components/BlackHole.tsx:389-401 | a full step (k = 1) lands on the target and stays there |
| Text.ToUpper | geminiService.ts:6 | ASCII upper-casing keeps the length, turns each ASCII lower-case letter into its own upper-case letter (code point minus 32), leaves no lower-case letter, and changes nothing else |
| Text.ToLower | App.tsx:87 | ASCII lower-casing keeps the length, turns each ASCII upper-case letter into its own lower-case letter (code point plus 32), leaves no upper-case letter, and changes nothing else |
| Text.LowerIgnoresCase | App.tsx:87 | lower-casing after upper-casing or after lower-casing is the same as lower-casing once |
| Text.NatToStringRoundTrip | utils/dossierGenerator.ts:297 | a number's decimal numeral reads back as the number |
| Text.NatToStringInjective | utils/dossierGenerator.ts:297 | distinct numbers have distinct numerals |
| Seqs.Dedup | server.js:273 | de-duplication keeps each element once, keeps only elements of the input, and keeps every element of it |
| Seqs.DedupKeepsFirstOccurrenceOrder | server.js:273 | de-duplication orders elements by their first occurrence (both directions) |
| Seqs.FilterOrder | utils/dossierGenerator.ts:287-290 | `filter` keeps its survivors in their given order: two kept elements occur in the input in the order they are kept |
| Seqs.BeforePositions | utils/dossierGenerator.ts:287-290 | `Before` means what it says: some occurrence of the first element sits at a smaller index than some occurrence of the second |
| Seqs.FilterPartition | utils/dossierGenerator.ts:287-290 | filtering by a predicate and by its negation splits the input: the two results together are a permutation of it |
| Pipeline.BriefReply | geminiService.ts:44-49 | a 500 answer is not OK; the reply is OK exactly when the route answered and the body parses |
| Pipeline.DossierReply | geminiService.ts:65-76 | the reply is OK exactly when the route answered, and then carries both of its lists |
| Pipeline.MissingKeyEndToEnd | geminiService.ts:44-54 | without an API key the page receives the all-defaults brief and a not-ready empty dossier, whatever the model would answer |
| Pipeline.DossierEndToEnd | server.js:263-281 | an answered dossier reaches the page ready, with the model's sections and exactly the merged grounding and JSON sources: at most eight, distinct, from those lists |
| Pipeline.ScanThroughService | App.tsx:38-43 | with the service's brief the scan ends SPEAKING and shows a complete brief whose name is the label shown while loading |
| Pipeline.PrintedDossier | utils/dossierGenerator.ts:263-299 | the printed dossier is headed by the upper-cased name and lists at most eight sources, numbered from [1] |

## Left out

- Shaders, the three.js scene graph, the bloom, lensing and glitch shader passes, and the orbit controls are not modelled. Only the values the loop writes to uniforms and transforms are. `autoRotateSpeed` is kept as a target value only.
- The starfield geometry, the window-resize handler and the unmount cleanup are not modelled: they hold no decision logic.
- The sRGB-to-linear conversion inside `THREE.Color.set` is not modelled. Channels are byte / 255.
- `fetch`, the Gemini SDK, Google Search grounding, ElevenLabs `Conversation.startSession` and `JSON.parse` are parameters of the model. Prompts, response schemas and `constants.ts` are left out.
- JSON values that break the response schema, such as a truthy non-string where a string is expected, are not representable. Fields are typed as optional strings and optional lists.
- Text.ToUpper: maps ASCII letters only, whereas JavaScript's `toUpperCase` maps all of Unicode and can change the length ("ß" becomes "SS"); the length-keeping promise holds for the ASCII mapping only.
- Text.ToLower: maps ASCII letters only, whereas JavaScript's `toLowerCase` maps all of Unicode and can change the length ("İ", U+0130, becomes two UTF-16 code units); the length-keeping promise holds for the ASCII mapping only.
- JSX, CSS and the literal HTML text of the report are not modelled. The report is a structured document of headings, paragraphs, metrics blocks and numbered sources. The date and time stamps are left out.
- `components/DossierModal.tsx` and `index.tsx` are not part of this model.
- The ordering of the background dossier promise relative to later events is not modelled. `DossierArrived` is an event that may occur at any time.
- The `conversation` handle and `endConversation` are not modelled: they only call into the ElevenLabs client.
- The `setInterval` timing of the loading bar and its cleanup are not modelled. The bar is a function of its sequence of ticks.
- Visual.DiskRotationMonotone: covers frames of at most 1/5 s only; the clock's delta is unbounded, and a longer frame can reverse the disk (`Visual.LongFrameReversesDisk`).
- Visual.RunDiskRotationMonotone: covers runs whose frames last at most 1/5 s only, for the same reason; `Visual.AnimateValid` and `Visual.RunValid` carry the same bound.
- Progress.Increment: takes the size draw as given in every band, while the code draws `Math.random()` only in the first three bands. The values the bar takes are the same.
- Server.BriefRoute: `response.text` being undefined is not modelled. The model's answer is a string.
- Session.EvidenceListsEverySignal: requires at least one key signal, because an empty list prints one empty line after the header.
- Session.ScanCompetitor: its catch branch is reached only through a `Thrown` outcome, which the service itself never produces (`Pipeline.ScanThroughService`). It is kept because `scanCompetitor` handles it.

=== FILE: gemini.dfy ===
/** The browser-side service that fetches a brief and a dossier from the server
    and normalises whatever comes back (geminiService.ts).

    The parsed JSON is modelled with the shape the server's response schema
    gives it, every field optional: `None` is a missing or `null` field. The
    `fetch` itself is an input: either the response was not OK, or it was OK
    and carried a parsed body, or something threw (network, `response.json()`). */
module GeminiService {
  import opened Wrappers
  import opened Types
  import Text

  datatype RawIntent = RawIntent(kind: Option<string>, contextLabel: Option<string>)
  datatype RawFrame = RawFrame(sentence: Option<string>, whatChanged: Option<string>, whyItMatters: Option<string>)
  datatype RawScenarios = RawScenarios(mostLikely: Option<string>, secondMostDangerous: Option<string>)
  datatype RawStrategy = RawStrategy(
    recommendedMove: Option<string>,
    alternativeMove: Option<string>,
    flipCondition: Option<string>,
    watchlist: Option<seq<string>>)
  datatype RawEvidence = RawEvidence(keySignals: Option<seq<Signal>>)
  datatype RawConfidence = RawConfidence(band: Option<string>, resolvingSignals: Option<seq<string>>)

  /** The brief as parsed from the response body, before normalisation. */
  datatype RawBrief = RawBrief(
    intent: Option<RawIntent>,
    frame: Option<RawFrame>,
    scenarios: Option<RawScenarios>,
    strategy: Option<RawStrategy>,
    dossier: Option<RawEvidence>,
    confidence: Option<RawConfidence>)

  /** The literal `{}`. */
  const EmptyBrief: RawBrief := RawBrief(None, None, None, None, None, None)

  /** The fixed fallbacks, one per string field. */
  const DefaultKind := "SITUATIONAL"
  const DefaultContextLabel := "RISK"
  const DefaultSentence := "Analyzing strategic context..."
  const DefaultWhatChanged := "Data acquisition in progress."
  const DefaultWhyItMatters := "Impact assessment pending."
  const DefaultMostLikely := "Calculating baseline trajectory..."
  const DefaultSecondMostDangerous := "Scanning for tail risks..."
  const DefaultRecommendedMove := "Stand by for recommendation."
  const DefaultAlternativeMove := "Formulating backup..."
  const DefaultFlipCondition := "Defining pivot points..."
  const DefaultBand := "MEDIUM"

  /** `value || fallback` on an optional string: the empty string is falsy too. */
  function OrDefault(v: Option<string>, fallback: string): (r: string)
    requires fallback != ""
    ensures r != ""
    ensures v.Some? && v.value != "" ==> r == v.value
    ensures v.None? || v.value == "" ==> r == fallback
  {
    if v.Some? && v.value != "" then v.value else fallback
  }

  /** `Array.isArray(v) ? v : []`. */
  function ListOr<T>(v: Option<seq<T>>): (r: seq<T>)
    ensures v.Some? ==> r == v.value
    ensures v.None? ==> r == []
  {
    v.GetOr([])
  }

  // `data?.intent?.x`: a missing object reads like an object with no fields.
  function IntentOf(d: RawBrief): RawIntent { d.intent.GetOr(RawIntent(None, None)) }
  function FrameOf(d: RawBrief): RawFrame { d.frame.GetOr(RawFrame(None, None, None)) }
  function ScenariosOf(d: RawBrief): RawScenarios { d.scenarios.GetOr(RawScenarios(None, None)) }
  function StrategyOf(d: RawBrief): RawStrategy { d.strategy.GetOr(RawStrategy(None, None, None, None)) }
  function EvidenceOf(d: RawBrief): RawEvidence { d.dossier.GetOr(RawEvidence(None)) }
  function ConfidenceOf(d: RawBrief): RawConfidence { d.confidence.GetOr(RawConfidence(None, None)) }

  /** Every string field of a brief except the target name is non-empty: the
      shape `sanitizeBrief` guarantees. */
  predicate FieldsFilled(b: ExecutiveBrief) {
    && b.intent.kind != "" && b.intent.contextLabel != ""
    && b.frame.sentence != "" && b.frame.whatChanged != "" && b.frame.whyItMatters != ""
    && b.scenarios.mostLikely != "" && b.scenarios.secondMostDangerous != ""
    && b.strategy.recommendedMove != "" && b.strategy.alternativeMove != ""
    && b.strategy.flipCondition != ""
    && b.confidence.band != ""
  }

  /** `sanitizeBrief(data, targetName)`: total. The target name is always the
      upper-cased argument, whatever the data holds; every string field is filled;
      an empty or missing band becomes MEDIUM; a missing list becomes empty. */
  function SanitizeBrief(data: RawBrief, targetName: string): (b: ExecutiveBrief)
    ensures b.targetName == Text.ToUpper(targetName)
    ensures FieldsFilled(b)
    ensures b.intent == Intent(OrDefault(IntentOf(data).kind, DefaultKind),
                               OrDefault(IntentOf(data).contextLabel, DefaultContextLabel))
    ensures var f := FrameOf(data);
      b.frame == Frame(OrDefault(f.sentence, DefaultSentence), OrDefault(f.whatChanged, DefaultWhatChanged),
                       OrDefault(f.whyItMatters, DefaultWhyItMatters))
    ensures var sc := ScenariosOf(data);
      b.scenarios == Scenarios(OrDefault(sc.mostLikely, DefaultMostLikely),
                               OrDefault(sc.secondMostDangerous, DefaultSecondMostDangerous))
    ensures var st := StrategyOf(data);
      && b.strategy.recommendedMove == OrDefault(st.recommendedMove, DefaultRecommendedMove)
      && b.strategy.alternativeMove == OrDefault(st.alternativeMove, DefaultAlternativeMove)
      && b.strategy.flipCondition == OrDefault(st.flipCondition, DefaultFlipCondition)
    ensures var c := ConfidenceOf(data);
      b.confidence.band == if c.band.Some? && c.band.value != "" then c.band.value else DefaultBand
    ensures b.strategy.watchlist == ListOr(StrategyOf(data).watchlist)
    ensures b.dossier.keySignals == ListOr(EvidenceOf(data).keySignals)
    ensures b.confidence.resolvingSignals == ListOr(ConfidenceOf(data).resolvingSignals)
  {
    var i := IntentOf(data);
    var f := FrameOf(data);
    var sc := ScenariosOf(data);
    var st := StrategyOf(data);
    var c := ConfidenceOf(data);
    ExecutiveBrief(
      Text.ToUpper(targetName),
      Intent(OrDefault(i.kind, DefaultKind), OrDefault(i.contextLabel, DefaultContextLabel)),
      Frame(OrDefault(f.sentence, DefaultSentence), OrDefault(f.whatChanged, DefaultWhatChanged),
            OrDefault(f.whyItMatters, DefaultWhyItMatters)),
      Scenarios(OrDefault(sc.mostLikely, DefaultMostLikely),
                OrDefault(sc.secondMostDangerous, DefaultSecondMostDangerous)),
      Strategy(OrDefault(st.recommendedMove, DefaultRecommendedMove),
               OrDefault(st.alternativeMove, DefaultAlternativeMove),
               OrDefault(st.flipCondition, DefaultFlipCondition),
               ListOr(st.watchlist)),
      Evidence(ListOr(EvidenceOf(data).keySignals)),
      Confidence(OrDefault(c.band, DefaultBand), ListOr(c.resolvingSignals)))
  }

  /** The JSON a brief serialises to: every field present. */
  function ToRaw(b: ExecutiveBrief): RawBrief {
    RawBrief(
      Some(RawIntent(Some(b.intent.kind), Some(b.intent.contextLabel))),
      Some(RawFrame(Some(b.frame.sentence), Some(b.frame.whatChanged), Some(b.frame.whyItMatters))),
      Some(RawScenarios(Some(b.scenarios.mostLikely), Some(b.scenarios.secondMostDangerous))),
      Some(RawStrategy(Some(b.strategy.recommendedMove), Some(b.strategy.alternativeMove),
                       Some(b.strategy.flipCondition), Some(b.strategy.watchlist))),
      Some(RawEvidence(Some(b.dossier.keySignals))),
      Some(RawConfidence(Some(b.confidence.band), Some(b.confidence.resolvingSignals))))
  }

  /** A brief survives serialisation and re-sanitising exactly when it is already
      in sanitised shape: all fields filled and the name upper-cased. */
  lemma SanitizeRoundTrip(b: ExecutiveBrief, name: string)
    ensures SanitizeBrief(ToRaw(b), name) == b <==> FieldsFilled(b) && b.targetName == Text.ToUpper(name)
  {
  }

  /** Sanitising is idempotent for a fixed name. */
  lemma SanitizeIdempotent(data: RawBrief, name: string)
    ensures SanitizeBrief(ToRaw(SanitizeBrief(data, name)), name) == SanitizeBrief(data, name)
  {
    SanitizeRoundTrip(SanitizeBrief(data, name), name);
  }

  /** What a `fetch` to the server came to, seen from the client. */
  datatype Reply<T> = NotOk | Ok(body: T) | Threw(message: string)

  /** `generateExecutiveBrief`: never fails. A good reply is sanitised; a non-OK
      reply or anything thrown gives the all-defaults brief for the name. */
  function GenerateExecutiveBrief(companyName: string, reply: Reply<RawBrief>): (b: ExecutiveBrief)
    ensures b.targetName == Text.ToUpper(companyName) && FieldsFilled(b)
    ensures reply.Ok? ==> b == SanitizeBrief(reply.body, companyName)
    ensures !reply.Ok? ==> b == SanitizeBrief(EmptyBrief, companyName)
  {
    match reply
    case Ok(data) => SanitizeBrief(data, companyName)
    case _ => SanitizeBrief(EmptyBrief, companyName)
  }

  /** The brief produced on every failure path: each field at its default. */
  lemma FailedBriefIsAllDefaults(companyName: string)
    ensures var b := GenerateExecutiveBrief(companyName, NotOk);
      && b.intent == Intent(DefaultKind, DefaultContextLabel)
      && b.frame == Frame(DefaultSentence, DefaultWhatChanged, DefaultWhyItMatters)
      && b.scenarios == Scenarios(DefaultMostLikely, DefaultSecondMostDangerous)
      && b.strategy == Strategy(DefaultRecommendedMove, DefaultAlternativeMove, DefaultFlipCondition, [])
      && b.dossier == Evidence([])
      && b.confidence == Confidence(DefaultBand, [])
  {
  }

  /** The dossier body as parsed by the client. */
  datatype RawDossier = RawDossier(sections: Option<seq<Section>>, sources: Option<seq<string>>)

  /** `generateDeepDossier`: a non-OK reply or a throw gives the fixed "not ready"
      value with nothing in it; an OK reply is ready, with missing lists empty. */
  function GenerateDeepDossier(companyName: string, reply: Reply<RawDossier>): (d: DeepDossier)
    ensures d.isReady <==> reply.Ok?
    ensures !d.isReady ==> d.sections == [] && d.sources == []
    ensures reply.Ok? ==> d.sections == ListOr(reply.body.sections) && d.sources == ListOr(reply.body.sources)
  {
    match reply
    case Ok(data) => DeepDossier(true, data.sections.GetOr([]), data.sources.GetOr([]))
    case _ => DeepDossier(false, [], [])
  }
}

=== FILE: markdown.dfy ===
/** The dossier's small Markdown-to-HTML rewriter (`parseMarkdown` in
    utils/dossierGenerator.ts): three global regular-expression replacements,
    applied in order — `**x**` to `<strong>x</strong>`, then `*x*` to `<em>x</em>`,
    then `` `x` `` to `<code>x</code>`. Each pattern is a delimiter, a lazy `.*?`
    and the delimiter again; `.` does not match a line terminator. */
module Markdown {
  import opened Wrappers
  import Text

  /** The characters JavaScript's `.` does not match. */
  predicate IsLineTerminator(c: char) {
    c == '\n' || c == '\r' || c == '\U{2028}' || c == '\U{2029}'
  }

  predicate NoLineTerminator(s: string) {
    forall i :: 0 <= i < |s| ==> !IsLineTerminator(s[i])
  }

  /** Where the lazy group ends: the least `k` such that `t[..k]` holds no line
      terminator and the delimiter follows at `k`; `None` when a line terminator
      or the end of the text comes first. */
  function CloseAt(t: string, d: string): (k: Option<nat>)
    requires |d| > 0
    ensures k.Some? ==> k.value + |d| <= |t| && Text.StartsWith(t[k.value..], d)
                        && NoLineTerminator(t[..k.value])
                        && forall j :: 0 <= j < k.value ==> !Text.StartsWith(t[j..], d)
    ensures k.None? ==> NoClose(t, d)
    decreases |t|
  {
    if Text.StartsWith(t, d) then Some(0)
    else if |t| == 0 || IsLineTerminator(t[0]) then
      NoCloseAtStop(t, d);
      None
    else
      match CloseAt(t[1..], d)
      case Some(k) =>
        CloseShifts(t, d, k);
        Some(k + 1)
      case None =>
        NoCloseShiftsBack(t, d);
        None
  }

  /** No delimiter starts anywhere in `t` that the group could reach: at no `j`
      with a terminator-free `t[..j]`. */
  predicate NoClose(t: string, d: string) {
    forall j :: 0 <= j && j + |d| <= |t| && NoLineTerminator(t[..j]) ==> !Text.StartsWith(t[j..], d)
  }

  /** An empty text, or one that starts with a line terminator and not with the
      delimiter, has no reachable close. */
  lemma NoCloseAtStop(t: string, d: string)
    requires |d| > 0 && !Text.StartsWith(t, d) && (|t| == 0 || IsLineTerminator(t[0]))
    ensures NoClose(t, d)
  {
    forall j | 0 < j <= |t| ensures !NoLineTerminator(t[..j]) {
      assert t[..j][0] == t[0];
    }
    assert t[0..] == t;
  }

  /** No reachable close in the tail, and none at the start, means none in `t`. */
  lemma NoCloseShiftsBack(t: string, d: string)
    requires |d| > 0 && |t| > 0 && !Text.StartsWith(t, d) && NoClose(t[1..], d)
    ensures NoClose(t, d)
  {
    forall j | 0 <= j && j + |d| <= |t| && NoLineTerminator(t[..j]) ensures !Text.StartsWith(t[j..], d) {
      if j > 0 {
        assert t[j..] == t[1..][j - 1..];
        assert t[1..][..j - 1] == t[..j][1..];
      }
    }
  }

  /** A close found at `k` in the tail of `t` is a close at `k + 1` in `t`, and
      the first one there when `t` neither starts with the delimiter nor with a
      line terminator. */
  lemma CloseShifts(t: string, d: string, k: nat)
    requires |d| > 0 && |t| > 0 && !Text.StartsWith(t, d) && !IsLineTerminator(t[0])
    requires k + |d| <= |t[1..]| && Text.StartsWith(t[1..][k..], d) && NoLineTerminator(t[1..][..k])
    requires forall j :: 0 <= j < k ==> !Text.StartsWith(t[1..][j..], d)
    ensures k + 1 + |d| <= |t| && Text.StartsWith(t[k + 1..], d) && NoLineTerminator(t[..k + 1])
    ensures forall j :: 0 <= j < k + 1 ==> !Text.StartsWith(t[j..], d)
  {
    assert t[k + 1..] == t[1..][k..];
    assert t[..k + 1] == [t[0]] + t[1..][..k];
    forall j | 0 <= j < k + 1 ensures !Text.StartsWith(t[j..], d) {
      if j > 0 {
        assert t[j..] == t[1..][j - 1..];
      }
    }
  }

  /** A match of the pattern at the very start of `s`: the length of its group. */
  function MatchAt(s: string, d: string): (k: Option<nat>)
    requires |d| > 0
    ensures k.Some? ==> |d| + k.value + |d| <= |s|
  {
    if Text.StartsWith(s, d) then CloseAt(s[|d|..], d) else None
  }

  /** A match is an opening delimiter, a body without line terminators, and a
      closing delimiter. */
  lemma MatchAtSpans(s: string, d: string)
    requires |d| > 0 && MatchAt(s, d).Some?
    ensures var k := MatchAt(s, d).value;
      && Text.StartsWith(s, d)
      && NoLineTerminator(s[|d|..|d| + k])
      && Text.StartsWith(s[|d| + k..], d)
  {
    var t := s[|d|..];
    var k := MatchAt(s, d).value;
    assert CloseAt(t, d) == Some(k);
    assert t[..k] == s[|d|..|d| + k];
    assert t[k..] == s[|d| + k..];
  }

  /** The closing delimiter of a match is the first one after the opening one:
      the lazy group takes the shortest body. */
  lemma MatchAtFirstClose(s: string, d: string)
    requires |d| > 0 && MatchAt(s, d).Some?
    ensures forall j :: |d| <= j < |d| + MatchAt(s, d).value ==> !Text.StartsWith(s[j..], d)
  {
    NoEarlierCloseInText(s, d, MatchAt(s, d).value);
  }

  /** There is no match exactly when the text does not open with the delimiter
      or no closing delimiter is reachable after it. */
  lemma MatchAtNone(s: string, d: string)
    requires |d| > 0
    ensures MatchAt(s, d).None? <==> !Text.StartsWith(s, d) || NoClose(s[|d|..], d)
  {
    if Text.StartsWith(s, d) {
      var t := s[|d|..];
      var k := CloseAt(t, d);
      if k.Some? {
        CloseDefeatsNoClose(t, d, k.value);
      }
    }
  }

  lemma NoEarlierCloseInText(s: string, d: string, n: nat)
    requires |d| + n <= |s|
    requires forall j :: 0 <= j < n ==> !Text.StartsWith(s[|d|..][j..], d)
    ensures forall j :: |d| <= j < |d| + n ==> !Text.StartsWith(s[j..], d)
  {
    forall j | |d| <= j < |d| + n ensures !Text.StartsWith(s[j..], d) {
      assert s[|d|..][j - |d|..] == s[j..];
    }
  }

  /** A reachable close refutes `NoClose`. */
  lemma CloseDefeatsNoClose(t: string, d: string, n: nat)
    requires n + |d| <= |t| && NoLineTerminator(t[..n]) && Text.StartsWith(t[n..], d)
    ensures !NoClose(t, d)
  {
  }

  /** The HTML element `<tag>x</tag>`. */
  function Element(tag: string, x: string): string {
    "<" + tag + ">" + x + "</" + tag + ">"
  }

  /** Whether `m` can be the match at the start of `s`: a group of length `k`
      between two delimiters, all inside `s`. */
  predicate Fits(s: string, d: string, m: Option<nat>) {
    m.Some? ==> |d| + m.value + |d| <= |s|
  }

  /** What one step of the scan at the start of `s` writes, given the match
      there: the element where the pattern matches, the first character
      elsewhere. */
  function Emitted(s: string, d: string, tag: string, m: Option<nat>): string
    requires |s| > 0 && Fits(s, d, m)
  {
    match m
    case Some(k) => Element(tag, s[|d|..|d| + k])
    case None => [s[0]]
  }

  /** How many characters that step consumes: the whole match, or one. */
  function Consumed(s: string, d: string, m: Option<nat>): (n: nat)
    requires |d| > 0 && |s| > 0 && Fits(s, d, m)
    ensures 1 <= n <= |s|
  {
    match m
    case Some(k) => |d| + k + |d|
    case None => 1
  }

  /** `s.replace(/D(.*?)D/g, '<tag>$1</tag>')`, scanning left to right: where the
      pattern matches, the match is replaced and the scan resumes after it;
      elsewhere one character is kept. */
  function Rewrite(s: string, d: string, tag: string): string
    requires |d| > 0
    decreases |s|
  {
    if |s| == 0 then ""
    else
      var m := MatchAt(s, d);
      Emitted(s, d, tag, m) + Rewrite(s[Consumed(s, d, m)..], d, tag)
  }

  function ParseMarkdown(text: string): string {
    Rewrite(Rewrite(Rewrite(text, "**", "strong"), "*", "em"), "`", "code")
  }

  /** `d` occurs nowhere in `s`. */
  predicate Absent(s: string, d: string) {
    forall i :: 0 <= i <= |s| ==> !Text.StartsWith(s[i..], d)
  }

  /** A pass leaves text without its delimiter untouched. */
  lemma {:induction false} RewriteAbsent(s: string, d: string, tag: string)
    requires |d| > 0 && Absent(s, d)
    ensures Rewrite(s, d, tag) == s
    decreases |s|
  {
    if |s| > 0 {
      assert !Text.StartsWith(s[0..], d);
      assert s[0..] == s;
      assert Absent(s[1..], d) by {
        forall i | 0 <= i <= |s[1..]| ensures !Text.StartsWith(s[1..][i..], d) {
          assert s[1..][i..] == s[i + 1..];
        }
      }
      RewriteAbsent(s[1..], d, tag);
    }
  }

  lemma AbsentOfCharFree(s: string, d: string, c: char)
    requires |d| > 0 && d[0] == c && c !in s
    ensures Absent(s, d)
  {
    forall i | 0 <= i <= |s| ensures !Text.StartsWith(s[i..], d) {
      if i < |s| && |d| <= |s| - i {
        assert s[i..][..|d|][0] == s[i] != c;
      }
    }
  }

  /** Text with no `*` and no backquote comes back unchanged. */
  lemma PlainTextUnchanged(text: string)
    requires '*' !in text && '`' !in text
    ensures ParseMarkdown(text) == text
  {
    AbsentOfCharFree(text, "**", '*');
    RewriteAbsent(text, "**", "strong");
    AbsentOfCharFree(text, "*", '*');
    RewriteAbsent(text, "*", "em");
    AbsentOfCharFree(text, "`", '`');
    RewriteAbsent(text, "`", "code");
  }

  /** A delimited run `D x D` on one line, with no delimiter character inside,
      becomes one element. */
  lemma {:induction false} RewriteWraps(x: string, d: string, tag: string)
    requires |d| > 0 && d[0] !in x && NoLineTerminator(x)
    ensures Rewrite(d + x + d, d, tag) == Element(tag, x)
  {
    var s := d + x + d;
    assert s[..|d|] == d;
    assert s[|d|..] == x + d;
    CloseAtPlain(x, d);
    assert MatchAt(s, d) == Some(|x|);
    assert s[|d|..|d| + |x|] == x;
    assert s[|d| + |x| + |d|..] == "";
  }

  lemma {:induction false} CloseAtPlain(x: string, d: string)
    requires |d| > 0 && d[0] !in x && NoLineTerminator(x)
    ensures CloseAt(x + d, d) == Some(|x|)
    decreases |x|
  {
    if |x| == 0 {
      assert x + d == d;
    } else {
      assert !Text.StartsWith(x + d, d) by { assert (x + d)[0] == x[0]; }
      assert (x + d)[1..] == x[1..] + d;
      CloseAtPlain(x[1..], d);
    }
  }

  /** The italic and code passes leave text without `*` and backquote alone. */
  lemma LaterPassesUnchanged(t: string)
    requires '*' !in t && '`' !in t
    ensures Rewrite(Rewrite(t, "*", "em"), "`", "code") == t
  {
    AbsentOfCharFree(t, "*", '*');
    RewriteAbsent(t, "*", "em");
    AbsentOfCharFree(t, "`", '`');
    RewriteAbsent(t, "`", "code");
  }

  /** An element whose tag and content avoid a character avoids it too. */
  lemma ElementAvoids(tag: string, x: string, c: char)
    requires c !in tag && c !in x && c != '<' && c != '>' && c != '/'
    ensures c !in Element(tag, x)
  {
    var r := Element(tag, x);
    assert r == ['<'] + tag + ['>'] + x + ['<', '/'] + tag + ['>'];
  }

  /** The passes run in order: `**x**` is bold, not an empty italic around `x`. */
  lemma BoldBeforeItalic(x: string)
    requires '*' !in x && '`' !in x && NoLineTerminator(x)
    ensures ParseMarkdown("**" + x + "**") == Element("strong", x)
  {
    RewriteWraps(x, "**", "strong");
    ElementAvoids("strong", x, '*');
    ElementAvoids("strong", x, '`');
    LaterPassesUnchanged(Element("strong", x));
  }

  /** `**` alone is an empty bold opener with no closer; the italic pass then
      reads it as an empty `*…*` pair. */
  lemma EmptyItalic()
    ensures ParseMarkdown("**") == Element("em", "")
  {
    assert CloseAt("", "**") == None;
    assert MatchAt("**", "**") == None;
    assert MatchAt("*", "**") == None;
    assert Rewrite("*", "**", "strong") == "*";
    assert Rewrite("**", "**", "strong") == "**";
    assert CloseAt("*", "*") == Some(0);
    assert MatchAt("**", "*") == Some(0);
    assert Rewrite("**", "*", "em") == Element("em", "");
    AbsentOfCharFree(Element("em", ""), "`", '`');
    RewriteAbsent(Element("em", ""), "`", "code");
  }

  /** `*x*` is italic. */
  lemma ItalicWraps(x: string)
    requires '*' !in x && '`' !in x && NoLineTerminator(x)
    ensures ParseMarkdown("*" + x + "*") == Element("em", x)
  {
    if |x| == 0 {
      EmptyItalic();
    } else {
      ItalicWrapsNonEmpty(x);
    }
  }

  lemma ItalicWrapsNonEmpty(x: string)
    requires |x| > 0 && '*' !in x && '`' !in x && NoLineTerminator(x)
    ensures ParseMarkdown("*" + x + "*") == Element("em", x)
  {
    NoDoubleStar(x);
    RewriteAbsent("*" + x + "*", "**", "strong");
    RewriteWraps(x, "*", "em");
    ElementAvoids("em", x, '`');
    AbsentOfCharFree(Element("em", x), "`", '`');
    RewriteAbsent(Element("em", x), "`", "code");
  }

  /** A single star on each side of star-free text makes no `**`. */
  lemma NoDoubleStar(x: string)
    requires |x| > 0 && '*' !in x
    ensures Absent("*" + x + "*", "**")
  {
    var s := "*" + x + "*";
    forall i | 0 <= i <= |s| ensures !Text.StartsWith(s[i..], "**") {
      if 0 < i < |s| - 1 {
        assert s[i..][..2][0] == s[i] == x[i - 1];
      } else if i == 0 {
        assert s[..2][1] == s[1] == x[0];
      }
    }
  }

  /** Looking for a closing delimiter stops at a line terminator: what follows it
      cannot matter. */
  lemma {:induction false} CloseAtStopsAtLine(t: string, c: char, u: string, d: string)
    requires |d| > 0 && NoLineTerminator(d) && IsLineTerminator(c)
    ensures CloseAt(t + [c] + u, d) == CloseAt(t, d)
    decreases |t|
  {
    var s := t + [c] + u;
    StartsWithAcrossLine(t, c, u, d);
    if !Text.StartsWith(s, d) && |t| > 0 && !IsLineTerminator(t[0]) {
      assert s[1..] == t[1..] + [c] + u;
      CloseAtStopsAtLine(t[1..], c, u, d);
    }
  }

  /** A delimiter without line terminators matches at the start of `t + [c] + u`
      exactly when it matches at the start of `t`. */
  lemma StartsWithAcrossLine(t: string, c: char, u: string, d: string)
    requires NoLineTerminator(d) && IsLineTerminator(c)
    ensures Text.StartsWith(t + [c] + u, d) <==> Text.StartsWith(t, d)
  {
    var s := t + [c] + u;
    if |t| < |d| <= |s| {
      assert s[..|d|][|t|] == c;
      assert !IsLineTerminator(d[|t|]);
    }
    if |d| <= |t| {
      assert s[..|d|] == t[..|d|];
    }
    if Text.StartsWith(t, d) {
      assert s[..|d|] == t[..|d|];
    }
  }

  /** Whether the pattern matches at the start of a line does not depend on the
      lines after it. */
  lemma MatchAtStopsAtLine(a: string, c: char, b: string, d: string)
    requires |d| > 0 && NoLineTerminator(d) && IsLineTerminator(c)
    ensures MatchAt(a + [c] + b, d) == MatchAt(a, d)
  {
    var s := a + [c] + b;
    StartsWithAcrossLine(a, c, b, d);
    if Text.StartsWith(a, d) {
      assert s[|d|..] == a[|d|..] + [c] + b;
      CloseAtStopsAtLine(a[|d|..], c, b, d);
    }
  }

  /** A step at the start of `a + [c] + b` with `a` non-empty finds the match
      the same step finds on `a` alone, and writes and consumes the same. */
  lemma StepStopsAtLine(a: string, c: char, b: string, d: string, tag: string)
    requires |d| > 0 && |a| > 0 && NoLineTerminator(d) && IsLineTerminator(c)
    ensures MatchAt(a + [c] + b, d) == MatchAt(a, d)
    ensures Emitted(a + [c] + b, d, tag, MatchAt(a, d)) == Emitted(a, d, tag, MatchAt(a, d))
  {
    MatchAtStopsAtLine(a, c, b, d);
    EmittedOfPrefix(a, a + [c] + b, d, tag, MatchAt(a, d));
  }

  /** A step that fits in a prefix of `s` writes the same on `s`. */
  lemma EmittedOfPrefix(a: string, s: string, d: string, tag: string, m: Option<nat>)
    requires |a| > 0 && a <= s && Fits(a, d, m)
    ensures Fits(s, d, m)
    ensures Emitted(s, d, tag, m) == Emitted(a, d, tag, m)
  {
    if m.Some? {
      assert s[|d|..|d| + m.value] == a[|d|..|d| + m.value];
    }
  }

  lemma Regroup(x: string, y: string, e: string, r: string, mid: string, t: string)
    requires x == e + (r + mid + t) && y == e + r
    ensures x == y + mid + t
  {
  }

  /** Matches never cross a line terminator: a pass rewrites each line on its own. */
  lemma {:induction false} RewriteByLine(a: string, c: char, b: string, d: string, tag: string)
    requires |d| > 0 && NoLineTerminator(d) && IsLineTerminator(c)
    ensures Rewrite(a + [c] + b, d, tag) == Rewrite(a, d, tag) + [c] + Rewrite(b, d, tag)
    decreases |a|
  {
    var s := a + [c] + b;
    if |a| == 0 {
      assert s == [c] + b;
      MatchAtStopsAtLine(a, c, b, d);
      assert s[1..] == b;
    } else {
      StepStopsAtLine(a, c, b, d, tag);
      var m := MatchAt(a, d);
      var n := Consumed(a, d, m);
      assert s[n..] == a[n..] + [c] + b;
      RewriteByLine(a[n..], c, b, d, tag);
      Regroup(Rewrite(s, d, tag), Rewrite(a, d, tag), Emitted(a, d, tag, m),
              Rewrite(a[n..], d, tag), [c], Rewrite(b, d, tag));
    }
  }

  /** `parseMarkdown` works line by line: no bold, italic or code span reaches
      across a line break. */
  lemma ParseByLine(a: string, c: char, b: string)
    requires IsLineTerminator(c)
    ensures ParseMarkdown(a + [c] + b) == ParseMarkdown(a) + [c] + ParseMarkdown(b)
  {
    RewriteByLine(a, c, b, "**", "strong");
    var a1 := Rewrite(a, "**", "strong");
    var b1 := Rewrite(b, "**", "strong");
    RewriteByLine(a1, c, b1, "*", "em");
    var a2 := Rewrite(a1, "*", "em");
    var b2 := Rewrite(b1, "*", "em");
    RewriteByLine(a2, c, b2, "`", "code");
  }
}

=== FILE: pipeline.dfy ===
/** The pieces put together: a server route's answer, as the client service
    receives it, feeding the page state and the printable dossier. The client's
    `response.json()` of the brief text is a parameter: it yields the parsed
    brief or fails. */
module Pipeline {
  import opened Wrappers
  import opened Types
  import Text
  import Seqs
  import Server
  import GeminiService
  import Session
  import Report

  /** What `fetch` sees of `/api/brief`: status 500 is not OK; a 200 body is
      parsed, and a parse failure throws inside the service. */
  function BriefReply(resp: Server.Response<string>, parse: string -> Option<GeminiService.RawBrief>)
    : (r: GeminiService.Reply<GeminiService.RawBrief>)
    ensures resp.Status500? ==> r.NotOk?
    ensures r.Ok? <==> resp.Answer? && parse(resp.body).Some?
  {
    match resp
    case Status500(_) => GeminiService.NotOk
    case Answer(text) =>
      match parse(text)
      case Some(data) => GeminiService.Ok(data)
      case None => GeminiService.Threw("invalid JSON")
  }

  /** What `fetch` sees of `/api/dossier`: the body always carries both lists. */
  function DossierReply(resp: Server.Response<Server.DossierBody>): (r: GeminiService.Reply<GeminiService.RawDossier>)
    ensures r.Ok? <==> resp.Answer?
    ensures resp.Answer? ==> r.body == GeminiService.RawDossier(Some(resp.body.sections), Some(resp.body.sources))
  {
    match resp
    case Status500(_) => GeminiService.NotOk
    case Answer(body) => GeminiService.Ok(GeminiService.RawDossier(Some(body.sections), Some(body.sources)))
  }

  /** Without an API key the page still gets a complete brief, every field at
      its default, and a dossier marked not ready, whatever the model would have
      answered. */
  lemma MissingKeyEndToEnd(env: Server.Env, name: string, call: Server.ModelCall<string>,
                           parse: string -> Option<GeminiService.RawBrief>,
                           dcall: Server.ModelCall<Server.DossierAnswer>)
    requires Server.ApiKey(env).None?
    ensures GeminiService.GenerateExecutiveBrief(name, BriefReply(Server.BriefRoute(env, call), parse))
            == GeminiService.SanitizeBrief(GeminiService.EmptyBrief, name)
    ensures GeminiService.GenerateDeepDossier(name, DossierReply(Server.DossierRoute(env, dcall)))
            == DeepDossier(false, [], [])
  {
  }

  /** A dossier the model answered reaches the page ready, with the model's
      sections and the merge of its grounding URIs and listed sources: at most
      eight distinct sources, each a grounding URI or a source the model listed. */
  lemma DossierEndToEnd(env: Server.Env, name: string, a: Server.DossierAnswer)
    requires Server.ApiKey(env).Some?
    ensures var d := GeminiService.GenerateDeepDossier(name, DossierReply(Server.DossierRoute(env, Server.Answered(a))));
      && d.isReady
      && d.sections == a.sections.GetOr([])
      && d.sources == Server.MergeSources(Server.WebSources(a.groundingChunks.GetOr([])), a.sources.GetOr([]))
      && Seqs.NoDup(d.sources) && |d.sources| <= Server.MaxSources
      && forall i :: 0 <= i < |d.sources| ==>
           d.sources[i] in Server.WebSources(a.groundingChunks.GetOr([])) + a.sources.GetOr([])
  {
  }

  /** The scan tool never takes its failure branch when its brief comes from
      the service, which always answers: the page ends in the speaking state,
      showing a brief whose name is the label it showed while loading. */
  lemma ScanThroughService(st: Session.AppState, name: string, reply: GeminiService.Reply<GeminiService.RawBrief>)
    ensures var b := GeminiService.GenerateExecutiveBrief(name, reply);
      var r := Session.ScanCompetitor(st, name, Session.Delivered(b));
      && r.0.ui == Speaking
      && r.0.brief == Some(b)
      && Session.Apply(st, Session.ScanStarted(name)).scanningTarget == Some(b.targetName)
      && GeminiService.FieldsFilled(b)
  {
  }

  /** The printed dossier for a brief from the service and a dossier from the
      server is headed by the upper-cased name and lists at most eight sources,
      numbered from 1. */
  lemma PrintedDossier(env: Server.Env, name: string, reply: GeminiService.Reply<GeminiService.RawBrief>,
                       a: Server.DossierAnswer)
    requires Server.ApiKey(env).Some?
    ensures var b := GeminiService.GenerateExecutiveBrief(name, reply);
      var d := GeminiService.GenerateDeepDossier(name, DossierReply(Server.DossierRoute(env, Server.Answered(a))));
      var doc := Report.GenerateDossier(b, d);
      && doc.heading == Text.ToUpper(name)
      && |doc.sources| <= Server.MaxSources
      && |doc.sections| == |a.sections.GetOr([])|
      && (|doc.sources| > 0 ==> doc.sources[0].number == "[1]")
  {
    var d := GeminiService.GenerateDeepDossier(name, DossierReply(Server.DossierRoute(env, Server.Answered(a))));
    var doc := Report.GenerateDossier(GeminiService.GenerateExecutiveBrief(name, reply), d);
    DossierEndToEnd(env, name, a);
    Report.FirstNumber();
    if |doc.sources| > 0 {
      assert doc.sources[0].number == Report.Bracketed(1);
    }
  }
}

=== FILE: progress.dfy ===
/** The loading bar shown while a scan is pending (components/IntelDisplay.tsx):
    every tick of the interval adds an increment that shrinks as the bar
    fills, sometimes skips a tick, and caps the value; a stage label follows
    the value. The timer is left out: the bar is a function of the sequence of
    ticks. `Math.random()` becomes the two draws of each tick, each in [0, 1). */
module Progress {

  /** The draws one tick takes: `size` scales the increment (it is drawn only
      below 85), `stutter` decides whether the tick is skipped. */
  datatype Draw = Draw(size: real, stutter: real)

  predicate ValidDraw(d: Draw) {
    0.0 <= d.size < 1.0 && 0.0 <= d.stutter < 1.0
  }

  const Cap: real := 99.9

  /** The increment before the stutter: a band chosen by how far the bar is. */
  function Increment(p: real, size: real): (inc: real)
    requires 0.0 <= size < 1.0
    ensures p < 40.0 ==> 1.5 <= inc < 2.5
    ensures 40.0 <= p < 70.0 ==> 0.5 <= inc < 1.0
    ensures 70.0 <= p < 85.0 ==> 0.2 <= inc < 0.4
    ensures 85.0 <= p < 99.0 ==> inc == 0.05
    ensures 99.0 <= p ==> inc == 0.0
  {
    if p < 40.0 then 1.5 + size
    else if p < 70.0 then 0.5 + size * 0.5
    else if p < 85.0 then 0.2 + size * 0.2
    else if p < 99.0 then 0.05
    else 0.0
  }

  function Min(a: real, b: real): real {
    if a <= b then a else b
  }

  /** One tick: the increment, zero when the stutter draw exceeds 0.9, then
      `Math.min(progress + increment, 99.9)`. */
  function Tick(p: real, d: Draw): (q: real)
    requires ValidDraw(d)
    ensures q <= Cap
    ensures 0.0 <= p <= Cap ==> p <= q
    ensures d.stutter > 0.9 && p <= Cap ==> q == p
  {
    var inc := if d.stutter > 0.9 then 0.0 else Increment(p, d.size);
    Min(p + inc, Cap)
  }

  function Run(p: real, draws: seq<Draw>): real
    requires forall i :: 0 <= i < |draws| ==> ValidDraw(draws[i])
    decreases |draws|
  {
    if |draws| == 0 then p else Run(Tick(p, draws[0]), draws[1..])
  }

  predicate AllValid(draws: seq<Draw>) {
    forall i :: 0 <= i < |draws| ==> ValidDraw(draws[i])
  }

  /** From 99 on the increment is zero: the bar stops, although the code's own
      comment says the crawl never stops. */
  lemma FrozenFrom99(p: real, d: Draw)
    requires ValidDraw(d) && 99.0 <= p <= Cap
    ensures Tick(p, d) == p
  {
  }

  /** Below the last band's end the cap is never reached: the bar grows by exactly
      the increment, so from 0 it stays below 99.05. */
  lemma CapNeverBinds(p: real, d: Draw)
    requires ValidDraw(d) && 0.0 <= p < 99.05
    ensures Tick(p, d) < 99.05
    ensures d.stutter <= 0.9 ==> Tick(p, d) == p + Increment(p, d.size)
  {
  }

  /** A tick without a stutter below 99 moves the bar by at least 0.05. */
  lemma TickAdvances(p: real, d: Draw)
    requires ValidDraw(d) && 0.0 <= p < 99.0 && d.stutter <= 0.9
    ensures Tick(p, d) >= p + 0.05
  {
  }

  /** Over any sequence of ticks from a value in range the bar never moves back
      and never passes the cap; from 0 it stays below 99.05. */
  lemma {:induction false} RunMonotoneBounded(p: real, draws: seq<Draw>)
    requires AllValid(draws) && 0.0 <= p <= Cap
    ensures p <= Run(p, draws) <= Cap
    ensures p < 99.05 ==> Run(p, draws) < 99.05
    decreases |draws|
  {
    if |draws| > 0 {
      var q := Tick(p, draws[0]);
      if p < 99.05 {
        CapNeverBinds(p, draws[0]);
      }
      RunMonotoneBounded(q, draws[1..]);
    }
  }

  predicate NoStutter(draws: seq<Draw>) {
    forall i :: 0 <= i < |draws| ==> draws[i].stutter <= 0.9
  }

  /** Without stutters the bar keeps moving until 99: after `n` ticks it is at
      least at `min(p + 0.05 n, 99)`. */
  lemma {:induction false} RunReaches(p: real, draws: seq<Draw>)
    requires AllValid(draws) && NoStutter(draws) && 0.0 <= p <= Cap
    ensures Run(p, draws) >= Min(p + 0.05 * |draws| as real, 99.0)
    decreases |draws|
  {
    if |draws| > 0 {
      var q := Tick(p, draws[0]);
      RunMonotoneBounded(q, draws[1..]);
      if p < 99.0 {
        TickAdvances(p, draws[0]);
        RunReaches(q, draws[1..]);
      }
    }
  }

  // ---------------------------------------------------------------------------
  // The stage label.

  datatype Stage = AcquiringTarget | AnalyzingTopology | GeneratingBrief | Finalizing {
    function Label(): string {
      match this
      case AcquiringTarget => "ACQUIRING TARGET"
      case AnalyzingTopology => "ANALYZING TOPOLOGY"
      case GeneratingBrief => "GENERATING BRIEF"
      case Finalizing => "FINALIZING"
    }

    function Rank(): nat {
      match this
      case AcquiringTarget => 0
      case AnalyzingTopology => 1
      case GeneratingBrief => 2
      case Finalizing => 3
    }
  }

  /** The label for a value: thresholds 30, 60 and 85. */
  function StageOf(p: real): (s: Stage)
    ensures s.Rank() == 0 <==> p < 30.0
    ensures s.Rank() == 1 <==> 30.0 <= p < 60.0
    ensures s.Rank() == 2 <==> 60.0 <= p < 85.0
    ensures s.Rank() == 3 <==> 85.0 <= p
  {
    if p < 30.0 then AcquiringTarget
    else if p < 60.0 then AnalyzingTopology
    else if p < 85.0 then GeneratingBrief
    else Finalizing
  }

  /** The label never goes back while the bar fills. */
  lemma StageMonotone(p: real, q: real)
    requires p <= q
    ensures StageOf(p).Rank() <= StageOf(q).Rank()
  {
  }

  /** Over a run of ticks the label never goes back. */
  lemma RunStageMonotone(p: real, draws: seq<Draw>)
    requires AllValid(draws) && 0.0 <= p <= Cap
    ensures StageOf(p).Rank() <= StageOf(Run(p, draws)).Rank()
  {
    RunMonotoneBounded(p, draws);
    StageMonotone(p, Run(p, draws));
  }

  // ---------------------------------------------------------------------------
  // The component's state and the effect that starts the bar.

  /** `loadingProgress` and `loadingStage`. */
  datatype Loader = Loader(progress: real, stage: string)

  const InitialLoader: Loader := Loader(0.0, "INITIALIZING")

  /** The bar runs while a non-empty target is scanned and no report is shown. */
  predicate Loading(scanningTarget: string, hasReport: bool) {
    scanningTarget != "" && !hasReport
  }

  /** The effect: when loading begins the value goes back to 0 (the label keeps
      its last text until the first tick); otherwise nothing changes. */
  function Restart(l: Loader, scanningTarget: string, hasReport: bool): (r: Loader)
    ensures Loading(scanningTarget, hasReport) ==> r.progress == 0.0 && r.stage == l.stage
    ensures !Loading(scanningTarget, hasReport) ==> r == l
  {
    if Loading(scanningTarget, hasReport) then l.(progress := 0.0) else l
  }

  /** One tick as the component applies it: the new value and its label. */
  function TickLoader(l: Loader, d: Draw): (r: Loader)
    requires ValidDraw(d)
    ensures r.stage == StageOf(r.progress).Label()
    ensures r.progress <= Cap
  {
    var q := Tick(l.progress, d);
    Loader(q, StageOf(q).Label())
  }

  function RunLoader(l: Loader, draws: seq<Draw>): Loader
    requires AllValid(draws)
    decreases |draws|
  {
    if |draws| == 0 then l else RunLoader(TickLoader(l, draws[0]), draws[1..])
  }

  /** A freshly started bar, after any number of ticks, shows the value the pure
      tick function computes from 0 and the label of that value. */
  lemma {:induction false} LoaderFollowsRun(l: Loader, draws: seq<Draw>)
    requires AllValid(draws) && |draws| > 0
    ensures RunLoader(l, draws).progress == Run(l.progress, draws)
    ensures RunLoader(l, draws).stage == StageOf(Run(l.progress, draws)).Label()
    decreases |draws|
  {
    if |draws| > 1 {
      LoaderFollowsRun(TickLoader(l, draws[0]), draws[1..]);
    }
  }
}

=== FILE: report.dfy ===
/** The printable dossier (utils/dossierGenerator.ts), as the structure the
    HTML spells out: the header fields, the sections in print order with their
    paragraphs rewritten from Markdown, the metrics block, and the numbered
    sources. The markup, the style sheet and the two time stamps are not part of
    the model. */
module Report {
  import opened Wrappers
  import opened Types
  import Text
  import Seqs
  import Markdown

  /** A section as printed: its heading, one paragraph per content item, and the
      metrics block when there is one. */
  datatype RenderedSection = RenderedSection(
    heading: string,
    paragraphs: seq<string>,
    metricsBlock: Option<seq<Metric>>)

  /** `renderSection(title, content, metrics)`. */
  function RenderSection(title: string, content: seq<string>, metrics: seq<Metric>): (r: RenderedSection)
    ensures r.heading == title
    ensures |r.paragraphs| == |content|
    ensures forall i :: 0 <= i < |content| ==> r.paragraphs[i] == Markdown.ParseMarkdown(content[i])
    ensures r.metricsBlock.Some? <==> |metrics| > 0
    ensures r.metricsBlock.Some? ==> r.metricsBlock.value == metrics
  {
    RenderedSection(
      title,
      seq(|content|, i requires 0 <= i < |content| => Markdown.ParseMarkdown(content[i])),
      if |metrics| > 0 then Some(metrics) else None)
  }

  /** Paragraphs without Markdown markers print as written. */
  lemma PlainParagraphsVerbatim(title: string, content: seq<string>, metrics: seq<Metric>)
    requires forall i :: 0 <= i < |content| ==> '*' !in content[i] && '`' !in content[i]
    ensures RenderSection(title, content, metrics).paragraphs == content
  {
    forall i | 0 <= i < |content|
      ensures RenderSection(title, content, metrics).paragraphs[i] == content[i]
    {
      Markdown.PlainTextUnchanged(content[i]);
    }
  }

  const SummaryHeading := "Executive Judgment"

  predicate IsSummary(s: Section) {
    Text.Contains(s.title, "SUMMARY")
  }

  const Summary: Section -> bool := s => IsSummary(s)
  const NotSummary: Section -> bool := s => !Summary(s)

  /** The sections in print order: those whose title contains "SUMMARY", then
      the others, each group in its original order. */
  function PrintOrder(ss: seq<Section>): seq<Section> {
    Seqs.Filter(Summary, ss) + Seqs.Filter(NotSummary, ss)
  }

  /** The printed sections: the summaries under the fixed heading, then every
      other section under its own title. */
  function RenderSections(ss: seq<Section>): (r: seq<RenderedSection>)
    ensures |r| == |PrintOrder(ss)|
  {
    var sums := Seqs.Filter(Summary, ss);
    var rest := Seqs.Filter(NotSummary, ss);
    seq(|sums|, i requires 0 <= i < |sums| => RenderSection(SummaryHeading, sums[i].content, sums[i].metrics))
    + seq(|rest|, i requires 0 <= i < |rest| => RenderSection(rest[i].title, rest[i].content, rest[i].metrics))
  }

  /** The heading a section is printed under. */
  function HeadingOf(s: Section): string {
    if IsSummary(s) then SummaryHeading else s.title
  }

  /** The i-th printed section is the i-th section of the print order, under the
      summary heading exactly when it is a summary and under its own title
      otherwise. */
  lemma RenderedInPrintOrder(ss: seq<Section>, i: nat)
    requires i < |PrintOrder(ss)|
    ensures var s := PrintOrder(ss)[i];
      RenderSections(ss)[i] == RenderSection(HeadingOf(s), s.content, s.metrics)
  {
    SummariesFirst(ss, i);
  }

  /** Every section is printed exactly once: the print order is a permutation of
      the dossier's sections. */
  lemma EachSectionOnce(ss: seq<Section>)
    ensures multiset(PrintOrder(ss)) == multiset(ss)
    ensures |RenderSections(ss)| == |ss|
  {
    Seqs.FilterPartition(Summary, NotSummary, ss);
  }

  /** The summaries come first: a section is printed under the summary heading
      exactly when it is among the leading summaries; every later section is not a
      summary. */
  lemma SummariesFirst(ss: seq<Section>, i: nat)
    requires i < |PrintOrder(ss)|
    ensures IsSummary(PrintOrder(ss)[i]) <==> i < |Seqs.Filter(Summary, ss)|
  {
  }

  /** Within each group the sections keep their given order: two printed
      sections that are both summaries, or both not, occur in the dossier in the
      order they are printed. */
  lemma GroupsKeepOrder(ss: seq<Section>, i: nat, j: nat)
    requires i < j < |PrintOrder(ss)|
    requires IsSummary(PrintOrder(ss)[i]) == IsSummary(PrintOrder(ss)[j])
    ensures Seqs.Before(ss, PrintOrder(ss)[i], PrintOrder(ss)[j])
  {
    var n := |Seqs.Filter(Summary, ss)|;
    SummariesFirst(ss, i);
    SummariesFirst(ss, j);
    if j < n {
      Seqs.FilterOrder(Summary, ss, i, j);
    } else {
      Seqs.FilterOrder(NotSummary, ss, i - n, j - n);
    }
  }

  /** A dossier without summaries prints its sections in their own order under
      their own titles. */
  lemma NoSummaryKeepsOrder(ss: seq<Section>)
    requires forall i :: 0 <= i < |ss| ==> !IsSummary(ss[i])
    ensures PrintOrder(ss) == ss
  {
    Seqs.FilterKeepsAll(NotSummary, ss);
    Seqs.FilterKeepsNone(Summary, ss);
  }

  /** One line of the reference list: its bracketed number and the link. */
  datatype SourceEntry = SourceEntry(number: string, href: string)

  /** `[${i + 1}]`. */
  function Bracketed(n: nat): string
  {
    "[" + Text.NatToString(n) + "]"
  }

  /** `dossier.sources.map((src, i) => ...)`: the i-th source is entry number i + 1. */
  function SourceList(sources: seq<string>): (r: seq<SourceEntry>)
    ensures |r| == |sources|
    ensures forall i :: 0 <= i < |r| ==> r[i].href == sources[i] && r[i].number == Bracketed(i + 1)
  {
    seq(|sources|, i requires 0 <= i < |sources| => SourceEntry(Bracketed(i + 1), sources[i]))
  }

  /** A label `[digits]` whose digits spell `n`. */
  predicate ReadsAs(e: string, n: nat) {
    && |e| >= 2
    && var s := e[1..|e| - 1];
    && (forall k :: 0 <= k < |s| ==> Text.IsDigit(s[k]))
    && Text.DigitsValue(s) == n
  }

  /** The i-th entry's number reads back as i + 1: the list is numbered 1, 2,
      ..., n in order. */
  lemma SourceNumberReadsBack(sources: seq<string>, i: nat)
    requires i < |sources|
    ensures ReadsAs(SourceList(sources)[i].number, i + 1)
  {
    SourceNumber(sources, i);
    BracketedReadsBack(i + 1);
  }

  /** No two entries share a number. */
  lemma SourceNumbersDistinct(sources: seq<string>, i: nat, j: nat)
    requires i < |sources| && j < |sources|
    ensures SourceList(sources)[i].number == SourceList(sources)[j].number ==> i == j
  {
    SourceNumber(sources, i);
    SourceNumber(sources, j);
    BracketedInjective(i + 1, j + 1);
  }

  lemma SourceNumber(sources: seq<string>, i: nat)
    requires i < |sources|
    ensures SourceList(sources)[i].number == Bracketed(i + 1)
  {
  }

  /** A bracketed number reads back as the number. */
  lemma BracketedReadsBack(n: nat)
    ensures ReadsAs(Bracketed(n), n)
  {
    var e := Bracketed(n);
    assert e[1..|e| - 1] == Text.NatToString(n);
    Text.NatToStringRoundTrip(n);
  }

  /** Different numbers give different labels. */
  lemma BracketedInjective(n: nat, m: nat)
    ensures Bracketed(n) == Bracketed(m) ==> n == m
  {
    var e, f := Bracketed(n), Bracketed(m);
    if e == f {
      assert Text.NatToString(n) == e[1..|e| - 1] == f[1..|f| - 1] == Text.NatToString(m);
      Text.NatToStringInjective(n, m);
    }
  }

  /** The first source is numbered `[1]`. */
  lemma FirstNumber()
    ensures Bracketed(1) == "[1]"
  {
    assert Text.NatToString(1) == "1";
  }

  /** The CSS class of the risk band. */
  function BandClass(band: string): (c: string)
    ensures c == "color-high" <==> band == "HIGH"
    ensures c == "color-medium" <==> band == "MEDIUM"
    ensures c == "color-low" <==> band != "HIGH" && band != "MEDIUM"
  {
    if band == "HIGH" then "color-high"
    else if band == "MEDIUM" then "color-medium"
    else "color-low"
  }

  /** The dossier document. */
  datatype Document = Document(
    heading: string,
    sectorContext: string,
    riskBand: string,
    riskClass: string,
    primaryIntent: string,
    sections: seq<RenderedSection>,
    sources: seq<SourceEntry>)

  /** `generateDossierHTML(brief, dossier)`. */
  function GenerateDossier(brief: ExecutiveBrief, dossier: DeepDossier): (d: Document)
    ensures d.heading == brief.targetName
    ensures d.riskBand == brief.confidence.band + " RISK"
    ensures d.riskClass == BandClass(brief.confidence.band)
    ensures d.sectorContext == brief.intent.contextLabel && d.primaryIntent == brief.intent.kind
    ensures d.sections == RenderSections(dossier.sections) && d.sources == SourceList(dossier.sources)
    ensures |d.sections| == |dossier.sections| && |d.sources| == |dossier.sources|
  {
    EachSectionOnce(dossier.sections);
    Document(
      brief.targetName,
      brief.intent.contextLabel,
      brief.confidence.band + " RISK",
      BandClass(brief.confidence.band),
      brief.intent.kind,
      RenderSections(dossier.sections),
      SourceList(dossier.sources))
  }
}

=== FILE: seqs.dfy ===
/** Sequence operations behind the JavaScript idioms the application uses:
    `[...new Set(xs)]` (duplicates removed, first occurrence kept, insertion
    order), `xs.slice(0, n)` and `xs.filter(p)`. */
module Seqs {

  predicate NoDup<T(==)>(xs: seq<T>) {
    forall i, j :: 0 <= i < j < |xs| ==> xs[i] != xs[j]
  }

  /** Position of the first occurrence of `x` in `xs`. */
  function IndexOf<T(==)>(xs: seq<T>, x: T): (k: nat)
    requires x in xs
    ensures k < |xs| && xs[k] == x && x !in xs[..k]
  {
    if xs[0] == x then 0 else 1 + IndexOf(xs[1..], x)
  }

  /** Appending an element does not move the first occurrence of one already present. */
  lemma {:induction false} IndexOfSnoc<T>(xs: seq<T>, z: T, x: T)
    requires x in xs
    ensures IndexOf(xs + [z], x) == IndexOf(xs, x)
  {
    if xs[0] != x {
      assert (xs + [z])[1..] == xs[1..] + [z];
      IndexOfSnoc(xs[1..], z, x);
    }
  }

  /** `[...new Set(xs)]`: each value once, at the place it first occurs. */
  function Dedup<T(==)>(xs: seq<T>): (r: seq<T>)
    ensures NoDup(r)
    ensures forall i :: 0 <= i < |r| ==> r[i] in xs
    ensures forall i :: 0 <= i < |xs| ==> xs[i] in r
    ensures |r| <= |xs|
    decreases |xs|
  {
    if |xs| == 0 then []
    else
      var d := Dedup(xs[..|xs| - 1]);
      var last := xs[|xs| - 1];
      assert xs == xs[..|xs| - 1] + [last];
      if last in d then d else d + [last]
  }

  /** A list that already has no duplicates is left as it is. */
  lemma {:induction false} DedupOfDistinct<T>(xs: seq<T>)
    requires NoDup(xs)
    ensures Dedup(xs) == xs
    decreases |xs|
  {
    if |xs| > 0 {
      var init := xs[..|xs| - 1];
      DedupOfDistinct(init);
      assert xs[|xs| - 1] !in init;
      assert init + [xs[|xs| - 1]] == xs;
    }
  }

  /** Order is that of first occurrence: of two kept values, the one that shows up
      earlier in the input comes earlier in the output. */
  lemma {:induction false} DedupKeepsFirstOccurrenceOrder<T>(xs: seq<T>, x: T, y: T)
    requires x in xs && y in xs
    ensures IndexOf(Dedup(xs), x) < IndexOf(Dedup(xs), y) <==> IndexOf(xs, x) < IndexOf(xs, y)
    decreases |xs|
  {
    var init := xs[..|xs| - 1];
    var last := xs[|xs| - 1];
    assert xs == init + [last];
    var d := Dedup(init);
    if x in init && y in init {
      DedupKeepsFirstOccurrenceOrder(init, x, y);
      IndexOfSnoc(init, last, x);
      IndexOfSnoc(init, last, y);
      if last !in d {
        IndexOfSnoc(d, last, x);
        IndexOfSnoc(d, last, y);
      }
    } else if x in init {
      // y occurs first at the last position, after every element of init
      assert y == last && y !in d;
      IndexOfSnoc(init, last, x);
      IndexOfSnoc(d, last, x);
      assert IndexOf(Dedup(xs), y) == |d| by {
        assert Dedup(xs) == d + [y];
      }
    } else if y in init {
      assert x == last && x !in d;
      IndexOfSnoc(init, last, y);
      IndexOfSnoc(d, last, y);
      assert IndexOf(Dedup(xs), x) == |d| by {
        assert Dedup(xs) == d + [x];
      }
    } else {
      assert x == last && y == last;
    }
  }

  /** Removing duplicates from `a + b` starts with `a` de-duplicated: everything
      from `a` comes ahead of anything new in `b`. */
  lemma {:induction false} DedupPrefix<T>(a: seq<T>, b: seq<T>)
    ensures Dedup(a) <= Dedup(a + b)
    decreases |b|
  {
    if |b| == 0 {
      assert a + b == a;
    } else {
      var b' := b[..|b| - 1];
      DedupPrefix(a, b');
      assert (a + b)[..|a + b| - 1] == a + b';
    }
  }

  /** `xs.slice(0, n)`. */
  function Take<T>(xs: seq<T>, n: nat): (r: seq<T>)
    ensures |r| <= n && |r| <= |xs|
    ensures r <= xs
    ensures |xs| <= n ==> r == xs
  {
    if |xs| <= n then xs else xs[..n]
  }

  /** `xs.filter(p)`. */
  function Filter<T>(p: T -> bool, xs: seq<T>): (r: seq<T>)
    ensures |r| <= |xs|
    ensures forall i :: 0 <= i < |r| ==> p(r[i])
    ensures forall i :: 0 <= i < |r| ==> r[i] in xs
    ensures forall i :: 0 <= i < |xs| && p(xs[i]) ==> xs[i] in r
    decreases |xs|
  {
    if |xs| == 0 then []
    else if p(xs[0]) then [xs[0]] + Filter(p, xs[1..])
    else Filter(p, xs[1..])
  }

  /** `x` occurs in `xs` at some position before an occurrence of `y`. */
  predicate Before<T(==)>(xs: seq<T>, x: T, y: T)
    decreases |xs|
  {
    |xs| > 0 && ((xs[0] == x && y in xs[1..]) || Before(xs[1..], x, y))
  }

  /** `Before` read as positions: some occurrence of `x` precedes some occurrence of `y`. */
  lemma {:induction false} BeforePositions<T>(xs: seq<T>, x: T, y: T)
    requires Before(xs, x, y)
    ensures exists a, b :: 0 <= a < b < |xs| && xs[a] == x && xs[b] == y
    decreases |xs|
  {
    if xs[0] == x && y in xs[1..] {
      var b :| 0 <= b < |xs[1..]| && xs[1..][b] == y;
      assert xs[0] == x && xs[b + 1] == y;
    } else {
      BeforePositions(xs[1..], x, y);
      var a, b :| 0 <= a < b < |xs[1..]| && xs[1..][a] == x && xs[1..][b] == y;
      assert xs[a + 1] == x && xs[b + 1] == y;
    }
  }

  /** A filter keeps its survivors in their given order: any two kept elements
      occur in the input in the order they are kept. */
  lemma {:induction false} FilterOrder<T>(p: T -> bool, xs: seq<T>, i: nat, j: nat)
    requires i < j < |Filter(p, xs)|
    ensures Before(xs, Filter(p, xs)[i], Filter(p, xs)[j])
    decreases |xs|, 1
  {
    FilterStep(p, xs);
    if !p(xs[0]) {
      FilterOrderSkip(p, xs, i, j);
    } else if i == 0 {
      FilterOrderHead(p, xs, j);
    } else {
      FilterOrderKeep(p, xs, i, j);
    }
  }

  /** The head survives and is the first of the two. */
  lemma FilterOrderHead<T>(p: T -> bool, xs: seq<T>, j: nat)
    requires |xs| > 0 && p(xs[0]) && 0 < j < |Filter(p, xs)|
    ensures Before(xs, Filter(p, xs)[0], Filter(p, xs)[j])
  {
    var rest := Filter(p, xs[1..]);
    FilterStep(p, xs);
    FilterIndexStep(p, xs, j);
    BeforeFromHead(xs, rest[j - 1]);
  }

  /** The head survives but is neither of the two. */
  lemma {:induction false} FilterOrderKeep<T>(p: T -> bool, xs: seq<T>, i: nat, j: nat)
    requires |xs| > 0 && p(xs[0]) && 0 < i < j < |Filter(p, xs)|
    ensures Before(xs, Filter(p, xs)[i], Filter(p, xs)[j])
    decreases |xs|, 0
  {
    var rest := Filter(p, xs[1..]);
    FilterStep(p, xs);
    FilterIndexStep(p, xs, i);
    FilterIndexStep(p, xs, j);
    FilterOrder(p, xs[1..], i - 1, j - 1);
    BeforeShift(xs, Filter(p, xs), rest, i, j, 1);
  }

  /** The head is dropped. */
  lemma {:induction false} FilterOrderSkip<T>(p: T -> bool, xs: seq<T>, i: nat, j: nat)
    requires |xs| > 0 && !p(xs[0]) && i < j < |Filter(p, xs)|
    ensures Before(xs, Filter(p, xs)[i], Filter(p, xs)[j])
    decreases |xs|, 0
  {
    var rest := Filter(p, xs[1..]);
    FilterStep(p, xs);
    FilterIndexStep(p, xs, i);
    FilterIndexStep(p, xs, j);
    FilterOrder(p, xs[1..], i, j);
    BeforeShift(xs, Filter(p, xs), rest, i, j, 0);
  }

  lemma BeforeFromHead<T>(xs: seq<T>, y: T)
    requires |xs| > 0 && y in xs[1..]
    ensures Before(xs, xs[0], y)
  {
  }

  /** Two elements in order in the tail are in order in the whole list, read
      through a shift `o` between two index ranges. */
  lemma BeforeShift<T>(xs: seq<T>, r: seq<T>, rest: seq<T>, i: nat, j: nat, o: nat)
    requires |xs| > 0 && o <= i < j < |r| && j - o < |rest|
    requires r[i] == rest[i - o] && r[j] == rest[j - o]
    requires Before(xs[1..], rest[i - o], rest[j - o])
    ensures Before(xs, r[i], r[j])
  {
  }

  /** How a filter's length and head follow from the filter of the tail. */
  lemma FilterStep<T>(p: T -> bool, xs: seq<T>)
    requires |xs| > 0
    ensures p(xs[0]) ==> |Filter(p, xs)| == |Filter(p, xs[1..])| + 1 && Filter(p, xs)[0] == xs[0]
    ensures !p(xs[0]) ==> |Filter(p, xs)| == |Filter(p, xs[1..])|
  {
  }

  /** Which survivor of the tail the `k`-th survivor of the whole list is. */
  lemma FilterIndexStep<T>(p: T -> bool, xs: seq<T>, k: nat)
    requires |xs| > 0 && k < |Filter(p, xs)|
    ensures p(xs[0]) && k > 0 ==> k - 1 < |Filter(p, xs[1..])| && Filter(p, xs)[k] == Filter(p, xs[1..])[k - 1]
    ensures !p(xs[0]) ==> k < |Filter(p, xs[1..])| && Filter(p, xs)[k] == Filter(p, xs[1..])[k]
  {
  }

  /** A filter that every element passes keeps the whole list. */
  lemma {:induction false} FilterKeepsAll<T>(p: T -> bool, xs: seq<T>)
    requires forall i :: 0 <= i < |xs| ==> p(xs[i])
    ensures Filter(p, xs) == xs
    decreases |xs|
  {
    if |xs| > 0 {
      FilterKeepsAll(p, xs[1..]);
    }
  }

  /** A filter that no element passes keeps nothing. */
  lemma {:induction false} FilterKeepsNone<T>(p: T -> bool, xs: seq<T>)
    requires forall i :: 0 <= i < |xs| ==> !p(xs[i])
    ensures Filter(p, xs) == []
    decreases |xs|
  {
    if |xs| > 0 {
      FilterKeepsNone(p, xs[1..]);
    }
  }

  /** Splitting a list by a predicate and by its negation loses and duplicates nothing. */
  lemma {:induction false} FilterPartition<T>(p: T -> bool, q: T -> bool, xs: seq<T>)
    requires forall i :: 0 <= i < |xs| ==> q(xs[i]) == !p(xs[i])
    ensures multiset(Filter(p, xs)) + multiset(Filter(q, xs)) == multiset(xs)
    ensures |Filter(p, xs)| + |Filter(q, xs)| == |xs|
    decreases |xs|
  {
    if |xs| > 0 {
      FilterPartition(p, q, xs[1..]);
      PartitionStep(p, q, xs);
    }
  }

  /** The inductive step of `FilterPartition`: the first element goes to exactly
      one side. */
  lemma PartitionStep<T>(p: T -> bool, q: T -> bool, xs: seq<T>)
    requires |xs| > 0 && q(xs[0]) == !p(xs[0])
    requires multiset(Filter(p, xs[1..])) + multiset(Filter(q, xs[1..])) == multiset(xs[1..])
    requires |Filter(p, xs[1..])| + |Filter(q, xs[1..])| == |xs[1..]|
    ensures multiset(Filter(p, xs)) + multiset(Filter(q, xs)) == multiset(xs)
    ensures |Filter(p, xs)| + |Filter(q, xs)| == |xs|
  {
    var rest := xs[1..];
    FilterHead(p, xs);
    FilterHead(q, xs);
    assert xs == [xs[0]] + rest;
    HeadsPartition(p, q, xs[0]);
    Regroup(multiset(Kept(p, xs[0])), multiset(Filter(p, rest)),
            multiset(Kept(q, xs[0])), multiset(Filter(q, rest)));
  }

  lemma Regroup<T>(a: multiset<T>, b: multiset<T>, c: multiset<T>, d: multiset<T>)
    ensures (a + b) + (c + d) == (a + c) + (b + d)
  {
  }

  /** The part of `[x]` that passes `p`. */
  function Kept<T>(p: T -> bool, x: T): seq<T> {
    if p(x) then [x] else []
  }

  lemma FilterHead<T>(p: T -> bool, xs: seq<T>)
    requires |xs| > 0
    ensures Filter(p, xs) == Kept(p, xs[0]) + Filter(p, xs[1..])
  {
  }

  lemma HeadsPartition<T>(p: T -> bool, q: T -> bool, x: T)
    requires q(x) == !p(x)
    ensures multiset(Kept(p, x)) + multiset(Kept(q, x)) == multiset([x])
    ensures |Kept(p, x)| + |Kept(q, x)| == 1
  {
  }
}

=== FILE: server.dfy ===
/** The two server routes (server.js), from the request to the JSON they answer
    with. The Gemini call (and the `JSON.parse` of its text) is an input: it
    either answered or threw. Prompts, Express routing and static serving are
    not part of the model. */
module Server {
  import opened Wrappers
  import opened Types
  import Text
  import Seqs

  /** The two environment variables the key may come from. */
  datatype Env = Env(geminiApiKey: Option<string>, apiKey: Option<string>)

  /** `process.env.GEMINI_API_KEY || process.env.API_KEY`: the first non-empty one. */
  function ApiKey(env: Env): (k: Option<string>)
    ensures k.Some? ==> k.value != ""
    ensures k.None? <==> (env.geminiApiKey.None? || env.geminiApiKey.value == "")
                         && (env.apiKey.None? || env.apiKey.value == "")
    ensures env.geminiApiKey.Some? && env.geminiApiKey.value != "" ==> k == env.geminiApiKey
    ensures k.Some? ==> k == env.geminiApiKey || k == env.apiKey
  {
    if env.geminiApiKey.Some? && env.geminiApiKey.value != "" then env.geminiApiKey
    else if env.apiKey.Some? && env.apiKey.value != "" then env.apiKey
    else None
  }

  /** What a route answers: a JSON body with status 200, or status 500 with an error text. */
  datatype Response<T> = Answer(body: T) | Status500(error: string)

  /** The outcome of the model call: its answer, or the message of what it threw. */
  datatype ModelCall<T> = Answered(value: T) | Raised(message: string)

  /** `e.message || "Server Error"`. */
  function ErrorText(message: string): (r: string)
    ensures r != ""
    ensures message != "" ==> r == message
  {
    if message != "" then message else "Server Error"
  }

  const MissingKeyError := "Server Configuration Error: Missing API Key"

  /** `POST /api/brief`: without a key, status 500 before the model is asked;
      otherwise the model's JSON text is passed through unchanged, or status 500
      with the thrown message. */
  function BriefRoute(env: Env, call: ModelCall<string>): (r: Response<string>)
    ensures ApiKey(env).None? ==> r == Status500(MissingKeyError)
    ensures ApiKey(env).Some? && call.Answered? ==> r == Answer(call.value)
    ensures r.Status500? ==> r.error != ""
  {
    if ApiKey(env).None? then Status500(MissingKeyError)
    else match call
      case Answered(text) => Answer(text)
      case Raised(m) => Status500(ErrorText(m))
  }

  /** `groundingChunks[i].web?.uri`. */
  datatype WebRef = WebRef(uri: Option<string>)
  datatype GroundingChunk = GroundingChunk(web: Option<WebRef>)

  /** The chunk's URI when it is present and starts with "http". */
  predicate HasHttpUri(c: GroundingChunk) {
    c.web.Some? && c.web.value.uri.Some? && Text.StartsWith(c.web.value.uri.value, "http")
  }

  /** `c.web?.uri`, with a missing URI read as the empty string: the filter
      below drops `undefined` and "" alike, since neither is truthy. */
  function UriText(c: GroundingChunk): string {
    if c.web.Some? && c.web.value.uri.Some? then c.web.value.uri.value else ""
  }

  /** `groundingChunks.map(c => c.web?.uri)`. */
  function UriTexts(chunks: seq<GroundingChunk>): (us: seq<string>)
    ensures |us| == |chunks|
    ensures forall k :: 0 <= k < |chunks| ==> us[k] == UriText(chunks[k])
  {
    seq(|chunks|, k requires 0 <= k < |chunks| => UriText(chunks[k]))
  }

  const IsHttp: string -> bool := u => Text.StartsWith(u, "http")

  /** `.map(c => c.web?.uri).filter(uri => uri && uri.startsWith('http'))`. */
  function WebSources(chunks: seq<GroundingChunk>): (r: seq<string>)
    ensures |r| <= |chunks|
    ensures forall i :: 0 <= i < |r| ==> Text.StartsWith(r[i], "http")
    ensures forall i :: 0 <= i < |chunks| && HasHttpUri(chunks[i]) ==> chunks[i].web.value.uri.value in r
    ensures forall i :: 0 <= i < |r| ==>
      exists j :: 0 <= j < |chunks| && HasHttpUri(chunks[j]) && chunks[j].web.value.uri.value == r[i]
  {
    var us := UriTexts(chunks);
    var r := Seqs.Filter(IsHttp, us);
    forall i | 0 <= i < |chunks| && HasHttpUri(chunks[i]) ensures chunks[i].web.value.uri.value in r {
      assert IsHttp(us[i]);
    }
    forall i | 0 <= i < |r|
      ensures exists j :: 0 <= j < |chunks| && HasHttpUri(chunks[j]) && chunks[j].web.value.uri.value == r[i]
    {
      assert IsHttp(r[i]);
      var j :| 0 <= j < |us| && us[j] == r[i];
      assert r[i] != "";
      assert HasHttpUri(chunks[j]);
    }
    r
  }

  /** The web sources keep the chunks' order: of two kept URIs, the first comes
      from an earlier chunk than the second. */
  lemma WebSourcesInOrder(chunks: seq<GroundingChunk>, i: nat, j: nat)
    requires i < j < |WebSources(chunks)|
    ensures Seqs.Before(UriTexts(chunks), WebSources(chunks)[i], WebSources(chunks)[j])
  {
    Seqs.FilterOrder(IsHttp, UriTexts(chunks), i, j);
  }

  const MaxSources := 8

  /** `[...new Set([...webSources, ...jsonSources])].slice(0, 8)`. */
  function MergeSources(web: seq<string>, json: seq<string>): (r: seq<string>)
    ensures Seqs.NoDup(r)
    ensures |r| <= MaxSources
    ensures forall i :: 0 <= i < |r| ==> r[i] in web + json
    ensures forall x :: x in web + json && x !in r ==> |r| == MaxSources
  {
    var all := Seqs.Dedup(web + json);
    var r := Seqs.Take(all, MaxSources);
    assert forall x :: x in web + json ==> x in all by {
      forall x | x in web + json ensures x in all {
        var i :| 0 <= i < |web + json| && (web + json)[i] == x;
      }
    }
    r
  }

  /** The grounding URIs come first: the first eight distinct ones of them open the list. */
  lemma MergeWebFirst(web: seq<string>, json: seq<string>)
    ensures Seqs.Take(Seqs.Dedup(web), MaxSources) <= MergeSources(web, json)
  {
    Seqs.DedupPrefix(web, json);
  }

  /** Of two sources kept, the one that occurs first in grounding-then-JSON order
      comes first. */
  lemma MergeFollowsFirstOccurrence(web: seq<string>, json: seq<string>, x: string, y: string)
    requires x in MergeSources(web, json) && y in MergeSources(web, json)
    ensures Seqs.IndexOf(MergeSources(web, json), x) < Seqs.IndexOf(MergeSources(web, json), y)
            <==> Seqs.IndexOf(web + json, x) < Seqs.IndexOf(web + json, y)
  {
    var all := Seqs.Dedup(web + json);
    var r := MergeSources(web, json);
    assert r <= all;
    PrefixIndexOf(r, all, x);
    PrefixIndexOf(r, all, y);
    Seqs.DedupKeepsFirstOccurrenceOrder(web + json, x, y);
  }

  /** The merge keeps the earliest distinct sources: anything occurring before a kept
      source in grounding-then-JSON order is kept too. */
  lemma MergeKeepsEarliest(web: seq<string>, json: seq<string>, x: string, y: string)
    requires x in MergeSources(web, json) && y in web + json
    requires Seqs.IndexOf(web + json, y) < Seqs.IndexOf(web + json, x)
    ensures y in MergeSources(web, json)
  {
    var all := Seqs.Dedup(web + json);
    var r := MergeSources(web, json);
    assert r <= all;
    PrefixIndexOf(r, all, x);
    var ky := Seqs.IndexOf(web + json, y);
    assert y == (web + json)[ky];
    assert y in all;
    Seqs.DedupKeepsFirstOccurrenceOrder(web + json, y, x);
    assert Seqs.IndexOf(all, y) < Seqs.IndexOf(all, x) < |r|;
    assert r[Seqs.IndexOf(all, y)] == y;
  }

  lemma PrefixIndexOf(p: seq<string>, s: seq<string>, x: string)
    requires p <= s && x in p
    ensures x in s && Seqs.IndexOf(p, x) == Seqs.IndexOf(s, x)
  {
    if p[0] != x {
      PrefixIndexOf(p[1..], s[1..], x);
    }
  }

  /** When the combined list already has no duplicates and at most eight entries,
      the merge is exactly grounding URIs followed by JSON sources. */
  lemma MergeExact(web: seq<string>, json: seq<string>)
    requires Seqs.NoDup(web + json) && |web + json| <= MaxSources
    ensures MergeSources(web, json) == web + json
  {
    Seqs.DedupOfDistinct(web + json);
  }

  /** The model's answer to the dossier prompt: the parsed JSON and the grounding
      metadata of the first candidate. */
  datatype DossierAnswer = DossierAnswer(
    sections: Option<seq<Section>>,
    sources: Option<seq<string>>,
    groundingChunks: Option<seq<GroundingChunk>>)

  datatype DossierBody = DossierBody(sections: seq<Section>, sources: seq<string>)

  /** `POST /api/dossier`: without a key, status 500 before the model is asked;
      otherwise the sections (or none) and the merged sources, or status 500 with
      the thrown message. */
  function DossierRoute(env: Env, call: ModelCall<DossierAnswer>): (r: Response<DossierBody>)
    ensures ApiKey(env).None? ==> r == Status500("Configuration Error")
    ensures r.Answer? <==> ApiKey(env).Some? && call.Answered?
    ensures r.Answer? ==> r.body.sections == call.value.sections.GetOr([])
    ensures r.Answer? ==>
      r.body.sources == MergeSources(WebSources(call.value.groundingChunks.GetOr([])), call.value.sources.GetOr([]))
    ensures r.Answer? ==> Seqs.NoDup(r.body.sources) && |r.body.sources| <= MaxSources
    ensures r.Answer? ==> forall i :: 0 <= i < |r.body.sources| ==>
      r.body.sources[i] in WebSources(call.value.groundingChunks.GetOr([])) + call.value.sources.GetOr([])
  {
    if ApiKey(env).None? then Status500("Configuration Error")
    else match call
      case Raised(m) => Status500(ErrorText(m))
      case Answered(a) =>
        var web := WebSources(a.groundingChunks.GetOr([]));
        Answer(DossierBody(a.sections.GetOr([]), MergeSources(web, a.sources.GetOr([]))))
  }

  /** A missing key decides the answer before the model is consulted: the answer
      is the same whatever the model would have done. */
  lemma MissingKeyShortCircuits(env: Env, c1: ModelCall<DossierAnswer>, c2: ModelCall<DossierAnswer>,
                                b1: ModelCall<string>, b2: ModelCall<string>)
    requires ApiKey(env).None?
    ensures DossierRoute(env, c1) == DossierRoute(env, c2)
    ensures BriefRoute(env, b1) == BriefRoute(env, b2)
  {
  }
}

=== FILE: session.dfy ===
/** The application shell (App.tsx): the state the page keeps, how the voice
    session's callbacks and the two agent tools move it, and the text the tools
    hand back to the agent.

    The voice session, the network calls and React's scheduling are outside the
    model: every callback and every settled promise is an `Event`, applied in the
    order it happens. */
module Session {
  import opened Wrappers
  import opened Types
  import Text
  import Seqs
  import Visual

  /** The state hooks of the page that the model follows (`conversation`, a
      handle on the live session, is left out). */
  datatype AppState = AppState(
    ui: UIState,
    brief: Option<ExecutiveBrief>,
    dossier: Option<DeepDossier>,
    scanningTarget: Option<string>,
    connected: bool,
    mountError: Option<string>)

  const InitialApp: AppState := AppState(Idle, None, None, None, false, None)

  /** Everything that changes the state. */
  datatype Event =
    | StartPressed                      // `startConversation`, before the session opens
    | StartFailed(message: Option<string>)  // `startSession` threw, with `error.message`
    | Connected                         // `onConnect`
    | Disconnected                      // `onDisconnect`
    | SessionError(errorMessage: Option<string>)  // `onError`, with `error?.message`
    | ModeChanged(mode: string)         // `onModeChange`
    | ScanStarted(name: string)         // `scanCompetitor`, before its `await`
    | ScanSucceeded(brief: ExecutiveBrief)   // the brief arrived
    | ScanFailed                        // the `await` threw
    | DossierArrived(dossier: DeepDossier)   // the background dossier settled

  const InitFailedPrefix := "Initialization Failed: "
  const ConnectionErrorPrefix := "Connection Error: "

  /** `"Connection Error: " + (error?.message || "Unknown")`. */
  function ConnectionErrorText(message: Option<string>): (r: string)
    ensures Text.StartsWith(r, ConnectionErrorPrefix)
    ensures message.Some? && message.value != "" ==> r[|ConnectionErrorPrefix|..] == message.value
    ensures message.None? || message.value == "" ==> r[|ConnectionErrorPrefix|..] == "Unknown"
  {
    var m := if message.Some? && message.value != "" then message.value else "Unknown";
    var r := ConnectionErrorPrefix + m;
    assert r[..|ConnectionErrorPrefix|] == ConnectionErrorPrefix;
    r
  }

  /** `"Initialization Failed: " + error.message`, with no fallback: a thrown value
      without a message is concatenated as the text "undefined", while an empty
      message leaves the prefix alone. */
  function InitFailedText(message: Option<string>): (r: string)
    ensures Text.StartsWith(r, InitFailedPrefix)
    ensures message.Some? ==> r[|InitFailedPrefix|..] == message.value
    ensures message.None? ==> r[|InitFailedPrefix|..] == "undefined"
  {
    var m := if message.Some? then message.value else "undefined";
    var r := InitFailedPrefix + m;
    assert r[..|InitFailedPrefix|] == InitFailedPrefix;
    r
  }

  /** Unlike the connection error, the initialisation error tells an absent message
      from an empty one, and never shows "Unknown" for either. */
  lemma InitFailedTellsAbsentFromEmpty()
    ensures InitFailedText(None) != InitFailedText(Some(""))
    ensures ConnectionErrorText(None) == ConnectionErrorText(Some(""))
  {
    assert InitFailedText(None)[|InitFailedPrefix|..] == "undefined";
    assert InitFailedText(Some(""))[|InitFailedPrefix|..] == "";
  }

  function Apply(st: AppState, e: Event): AppState {
    match e
    case StartPressed => st.(ui := Thinking, brief := None, dossier := None, scanningTarget := None)
    case StartFailed(m) => st.(ui := Idle, mountError := Some(InitFailedText(m)))
    case Connected => st.(connected := true, ui := Idle)
    case Disconnected => st.(connected := false, ui := Idle, brief := None, dossier := None)
    case SessionError(m) =>
      st.(mountError := Some(ConnectionErrorText(m)), ui := Idle, brief := None, dossier := None)
    case ModeChanged(mode) =>
      if mode == "speaking" then st.(ui := Speaking)
      else if mode == "listening" then st.(ui := Listening)
      else st
    case ScanStarted(name) => st.(ui := Analyzing, scanningTarget := Some(Text.ToUpper(name)), dossier := None)
    case ScanSucceeded(b) => st.(brief := Some(b), ui := Speaking, scanningTarget := None)
    case ScanFailed => st.(ui := Idle, scanningTarget := None)
    case DossierArrived(d) => st.(dossier := Some(d))
  }

  function Run(st: AppState, events: seq<Event>): AppState
    decreases |events|
  {
    if |events| == 0 then st else Run(Apply(st, events[0]), events[1..])
  }

  // ---------------------------------------------------------------------------
  // Which fields each event writes, read off the setter calls of each handler.

  datatype Field = UiField | BriefField | DossierField | TargetField | ConnectedField | MountErrorField

  predicate Agree(a: AppState, b: AppState, f: Field) {
    match f
    case UiField => a.ui == b.ui
    case BriefField => a.brief == b.brief
    case DossierField => a.dossier == b.dossier
    case TargetField => a.scanningTarget == b.scanningTarget
    case ConnectedField => a.connected == b.connected
    case MountErrorField => a.mountError == b.mountError
  }

  function Writes(e: Event): set<Field> {
    match e
    case StartPressed => {UiField, BriefField, DossierField, TargetField}
    case StartFailed(_) => {UiField, MountErrorField}
    case Connected => {ConnectedField, UiField}
    case Disconnected => {ConnectedField, UiField, BriefField, DossierField}
    case SessionError(_) => {MountErrorField, UiField, BriefField, DossierField}
    case ModeChanged(_) => {UiField}
    case ScanStarted(_) => {UiField, TargetField, DossierField}
    case ScanSucceeded(_) => {BriefField, UiField, TargetField}
    case ScanFailed => {UiField, TargetField}
    case DossierArrived(_) => {DossierField}
  }

  /** An event leaves every field it does not write as it was. */
  lemma ApplyFrame(st: AppState, e: Event, f: Field)
    requires f !in Writes(e)
    ensures Agree(st, Apply(st, e), f)
  {
  }

  /** Starting a session shows the thinking state and clears the previous
      session's brief, dossier and loading label. */
  lemma StartClearsSession(st: AppState)
    ensures var r := Apply(st, StartPressed);
      r.ui == Thinking && r.brief.None? && r.dossier.None? && r.scanningTarget.None?
  {
  }

  /** Each session callback returns to the idle state; losing the session, by a
      disconnect or an error, also clears the brief and the dossier. An error
      does not change `connected`. */
  lemma CallbacksGoIdle(st: AppState, m: Option<string>)
    ensures Apply(st, Connected).ui == Idle && Apply(st, Connected).connected
    ensures var r := Apply(st, Disconnected);
      r.ui == Idle && !r.connected && r.brief.None? && r.dossier.None?
    ensures var r := Apply(st, SessionError(m));
      r.ui == Idle && r.brief.None? && r.dossier.None? && r.connected == st.connected
      && r.mountError == Some(ConnectionErrorText(m))
  {
  }

  /** The agent's mode drives the visual state only for "speaking" and
      "listening"; any other mode changes nothing at all. */
  lemma ModeChangeRule(st: AppState, mode: string)
    ensures mode == "speaking" ==> Apply(st, ModeChanged(mode)).ui == Speaking
    ensures mode == "listening" ==> Apply(st, ModeChanged(mode)).ui == Listening
    ensures mode != "speaking" && mode != "listening" ==> Apply(st, ModeChanged(mode)) == st
  {
  }

  // ---------------------------------------------------------------------------
  // The state invariant.

  /** A loading label is always upper case, and a mount error always carries one
      of the two prefixes the code writes. */
  predicate Inv(st: AppState) {
    && (st.scanningTarget.Some? ==> Text.IsUpperCase(st.scanningTarget.value))
    && (st.mountError.Some? ==>
          Text.StartsWith(st.mountError.value, InitFailedPrefix)
          || Text.StartsWith(st.mountError.value, ConnectionErrorPrefix))
  }

  lemma ApplyKeepsInv(st: AppState, e: Event)
    requires Inv(st)
    ensures Inv(Apply(st, e))
  {
    match e
    case ScanStarted(name) => Text.UpperIsIdempotent(name);
    case _ =>
  }

  lemma {:induction false} RunKeepsInv(st: AppState, events: seq<Event>)
    requires Inv(st)
    ensures Inv(Run(st, events))
    decreases |events|
  {
    if |events| > 0 {
      ApplyKeepsInv(st, events[0]);
      RunKeepsInv(Apply(st, events[0]), events[1..]);
    }
  }

  lemma InitialInv()
    ensures Inv(InitialApp)
  {
  }

  // ---------------------------------------------------------------------------
  // The scan tool.

  /** What the `await generateExecutiveBrief(...)` in the scan tool came to. */
  datatype ScanOutcome = Delivered(brief: ExecutiveBrief) | Thrown(message: string)

  const AlertPrefix := "SYSTEM ALERT: Intelligence acquisition failed. Error: "
  const AlertSuffix := ". Check API Keys."

  /** The text returned to the agent when the scan threw: the error message, or
      "Unknown Server Error" when it has none. */
  function FailureAlert(message: string): (r: string)
    ensures Text.StartsWith(r, AlertPrefix)
    ensures |r| >= |AlertPrefix| + |AlertSuffix|
    ensures r[|r| - |AlertSuffix|..] == AlertSuffix
    ensures message != "" ==> r[|AlertPrefix|..|r| - |AlertSuffix|] == message
    ensures message == "" ==> r[|AlertPrefix|..|r| - |AlertSuffix|] == "Unknown Server Error"
  {
    var m := if message != "" then message else "Unknown Server Error";
    var r := AlertPrefix + m + AlertSuffix;
    assert r[..|AlertPrefix|] == AlertPrefix;
    assert r[|AlertPrefix|..|r| - |AlertSuffix|] == m;
    r
  }

  /** `scanCompetitor`: the state after the tool's promise settles, and the text
      it hands to the agent. The background dossier request it fires arrives
      later, as its own `DossierArrived` event. */
  function ScanCompetitor(st: AppState, name: string, outcome: ScanOutcome): (r: (AppState, string))
    ensures r.0.scanningTarget.None? && r.0.dossier.None?
    ensures r.0.connected == st.connected && r.0.mountError == st.mountError
    ensures outcome.Delivered? ==>
      r.0.ui == Speaking && r.0.brief == Some(outcome.brief) && r.1 == ScanScript(outcome.brief)
    ensures outcome.Thrown? ==>
      r.0.ui == Idle && r.0.brief == st.brief && r.1 == FailureAlert(outcome.message)
  {
    var started := Apply(st, ScanStarted(name));
    match outcome
    case Delivered(b) => (Apply(started, ScanSucceeded(b)), ScanScript(b))
    case Thrown(m) => (Apply(started, ScanFailed), FailureAlert(m))
  }

  /** While the scan is pending the page shows the analysing state under the
      upper-cased name, with the old dossier gone; the black hole runs its glitch
      pass meanwhile. */
  lemma ScanInProgress(st: AppState, name: string)
    ensures var r := Apply(st, ScanStarted(name));
      r.ui == Analyzing && r.scanningTarget == Some(Text.ToUpper(name)) && r.dossier.None?
      && Visual.TargetsFor(r.ui.Tag()).glitchPass
  {
  }

  /** When the brief is delivered the visual state is speaking: the pulse is on
      and the glitch pass off. */
  lemma ScanDeliveredSpeaks(st: AppState, name: string, b: ExecutiveBrief)
    ensures var t := Visual.TargetsFor(ScanCompetitor(st, name, Delivered(b)).0.ui.Tag());
      t.pulse == 0.8 && !t.glitchPass
  {
  }

  // ---------------------------------------------------------------------------
  // The script read to the agent after a successful scan.

  const Indent := "        "

  /** `watchlist.slice(0, 2).join(", ")`. */
  function WatchlistText(b: ExecutiveBrief): string {
    Text.Join(Seqs.Take(b.strategy.watchlist, 2), ", ")
  }

  /** The line after the confidence band: empty for HIGH, otherwise the
      resolving signals. */
  function ResolvingText(b: ExecutiveBrief): string {
    if b.confidence.band != "HIGH" then "Resolving signals needed: " + Text.Join(b.confidence.resolvingSignals, ", ")
    else ""
  }

  /** The lines of the template literal, as written: it opens with a line break,
      every line is indented by eight spaces, and it closes with six. */
  function ScriptLines(b: ExecutiveBrief): (ls: seq<string>)
    ensures |ls| == 19
  {
    [ "",
      Indent + "FRAME: " + b.frame.sentence,
      Indent,
      Indent + "SITUATION: " + b.frame.whatChanged + " " + b.frame.whyItMatters,
      Indent,
      Indent + "SCENARIOS:",
      Indent + "Base Case: " + b.scenarios.mostLikely,
      Indent + "Risk Case: " + b.scenarios.secondMostDangerous,
      Indent,
      Indent + "DIRECTIVE:",
      Indent + "Recommended Move: " + b.strategy.recommendedMove,
      Indent + "Backup Move: " + b.strategy.alternativeMove,
      Indent,
      Indent + "WATCHLIST: " + WatchlistText(b) + ".",
      Indent + "FLIP CONDITION: I will pivot if " + b.strategy.flipCondition + ".",
      Indent,
      Indent + "CONFIDENCE: " + b.confidence.band + ". ",
      Indent + ResolvingText(b),
      "      " ]
  }

  function ScanScript(b: ExecutiveBrief): string {
    Text.Join(ScriptLines(b), "\n")
  }

  /** Only the first two watchlist entries reach the script. */
  lemma ScriptReadsTwoWatchlistItems(b: ExecutiveBrief)
    ensures ScanScript(b) == ScanScript(b.(strategy := b.strategy.(watchlist := Seqs.Take(b.strategy.watchlist, 2))))
  {
    var w := b.strategy.watchlist;
    assert Seqs.Take(Seqs.Take(w, 2), 2) == Seqs.Take(w, 2);
  }

  /** With a HIGH band the resolving signals do not reach the script; with any
      other band they are listed on the line after it. */
  lemma ScriptResolvingSignals(b: ExecutiveBrief)
    ensures b.confidence.band == "HIGH" ==>
      ScanScript(b) == ScanScript(b.(confidence := b.confidence.(resolvingSignals := [])))
    ensures b.confidence.band != "HIGH" ==>
      ScriptLines(b)[17] == Indent + "Resolving signals needed: " + Text.Join(b.confidence.resolvingSignals, ", ")
  {
  }

  /** The script reads nothing of the brief but its frame, scenarios, strategy
      and confidence: the name, intent and evidence do not reach it. */
  lemma ScriptIgnoresNameIntentEvidence(b: ExecutiveBrief, name: string, i: Intent, ev: Evidence)
    ensures ScanScript(b) == ScanScript(b.(targetName := name, intent := i, dossier := ev))
  {
  }

  /** No string the brief puts in the script holds a line break. */
  predicate ScriptFieldsOneLine(b: ExecutiveBrief) {
    && '\n' !in b.frame.sentence && '\n' !in b.frame.whatChanged && '\n' !in b.frame.whyItMatters
    && '\n' !in b.scenarios.mostLikely && '\n' !in b.scenarios.secondMostDangerous
    && '\n' !in b.strategy.recommendedMove && '\n' !in b.strategy.alternativeMove
    && '\n' !in b.strategy.flipCondition && '\n' !in b.confidence.band
    && (forall i :: 0 <= i < |b.strategy.watchlist| ==> '\n' !in b.strategy.watchlist[i])
    && (forall i :: 0 <= i < |b.confidence.resolvingSignals| ==> '\n' !in b.confidence.resolvingSignals[i])
  }

  /** When the brief's strings are single lines, the script's lines are exactly
      the template's: splitting it at line breaks gives them back. */
  lemma ScriptSplitsIntoLines(b: ExecutiveBrief)
    requires ScriptFieldsOneLine(b)
    ensures Text.Split(ScanScript(b), '\n') == ScriptLines(b)
  {
    ScriptLinesAreLines(b);
    Text.SplitJoin(ScriptLines(b), '\n');
  }

  lemma ScriptLinesAreLines(b: ExecutiveBrief)
    requires ScriptFieldsOneLine(b)
    ensures forall i :: 0 <= i < 19 ==> '\n' !in ScriptLines(b)[i]
  {
    ListsAreOneLine(b);
    LinesAreLines1(b);
    LinesAreLines2(b);
    LinesAreLines3(b);
    LinesAreLines4(b);
    LinesAreLines5(b);
  }

  lemma LinesAreLines1(b: ExecutiveBrief)
    requires ScriptFieldsOneLine(b)
    ensures forall i :: 0 <= i < 6 ==> '\n' !in ScriptLines(b)[i]
  {
  }

  lemma LinesAreLines2(b: ExecutiveBrief)
    requires ScriptFieldsOneLine(b)
    ensures forall i :: 6 <= i < 11 ==> '\n' !in ScriptLines(b)[i]
  {
  }

  lemma LinesAreLines3(b: ExecutiveBrief)
    requires ScriptFieldsOneLine(b) && '\n' !in WatchlistText(b)
    ensures forall i :: 11 <= i < 14 ==> '\n' !in ScriptLines(b)[i]
  {
  }

  lemma LinesAreLines4(b: ExecutiveBrief)
    requires ScriptFieldsOneLine(b)
    ensures '\n' !in ScriptLines(b)[14]
  {
  }

  lemma LinesAreLines5(b: ExecutiveBrief)
    requires ScriptFieldsOneLine(b) && '\n' !in ResolvingText(b)
    ensures forall i :: 15 <= i < 19 ==> '\n' !in ScriptLines(b)[i]
  {
  }

  lemma ListsAreOneLine(b: ExecutiveBrief)
    requires ScriptFieldsOneLine(b)
    ensures '\n' !in WatchlistText(b) && '\n' !in ResolvingText(b)
  {
    var w := Seqs.Take(b.strategy.watchlist, 2);
    assert forall i :: 0 <= i < |w| ==> w[i] == b.strategy.watchlist[i];
    Text.JoinAvoids(w, ", ", '\n');
    Text.JoinAvoids(b.confidence.resolvingSignals, ", ", '\n');
  }

  // ---------------------------------------------------------------------------
  // The dossier tool: a keyword router over the current brief.

  const NoDossierReply := "No active dossier. Please scan a target first."

  /** The four kinds of answer, in the router's priority order. */
  datatype Route = EvidenceRoute | RiskRoute | StrategyRoute | SummaryRoute

  const EvidenceWords: seq<string> := ["evidence", "proof", "signal"]
  const RiskWords: seq<string> := ["risk", "fail", "bad"]
  const StrategyWords: seq<string> := ["move", "strategy", "recommend"]

  /** Some word of the list occurs in the query. */
  predicate Mentions(q: string, words: seq<string>) {
    exists i :: 0 <= i < |words| && Text.Contains(q, words[i])
  }

  /** The `if` chain on the lower-cased query: the first group with a word in
      the query wins. */
  function Classify(q: string): (r: Route)
    ensures r == EvidenceRoute <==> Mentions(q, EvidenceWords)
    ensures r == RiskRoute <==> !Mentions(q, EvidenceWords) && Mentions(q, RiskWords)
    ensures r == StrategyRoute <==>
      !Mentions(q, EvidenceWords) && !Mentions(q, RiskWords) && Mentions(q, StrategyWords)
    ensures r == SummaryRoute <==>
      !Mentions(q, EvidenceWords) && !Mentions(q, RiskWords) && !Mentions(q, StrategyWords)
  {
    MentionsOfThree(q, EvidenceWords);
    MentionsOfThree(q, RiskWords);
    MentionsOfThree(q, StrategyWords);
    if Text.Contains(q, "evidence") || Text.Contains(q, "proof") || Text.Contains(q, "signal") then
      EvidenceRoute
    else if Text.Contains(q, "risk") || Text.Contains(q, "fail") || Text.Contains(q, "bad") then
      RiskRoute
    else if Text.Contains(q, "move") || Text.Contains(q, "strategy") || Text.Contains(q, "recommend") then
      StrategyRoute
    else
      SummaryRoute
  }

  lemma MentionsOfThree(q: string, words: seq<string>)
    requires |words| == 3
    ensures Mentions(q, words) <==>
      Text.Contains(q, words[0]) || Text.Contains(q, words[1]) || Text.Contains(q, words[2])
  {
  }

  const EvidenceHeader := "EVIDENCE RETRIEVED:\n"
  const RiskHeader := "RISK DETAIL: "
  const StrategyHeader := "STRATEGY DETAIL: Recommended: "
  const SummaryHeader := "DOSSIER SUMMARY: Frame: "

  function Header(route: Route): string {
    match route
    case EvidenceRoute => EvidenceHeader
    case RiskRoute => RiskHeader
    case StrategyRoute => StrategyHeader
    case SummaryRoute => SummaryHeader
  }

  /** `${s.bucket}: ${s.content}`. */
  function SignalLine(s: Signal): string {
    s.bucket + ": " + s.content
  }

  function SignalLines(signals: seq<Signal>): (ls: seq<string>)
    ensures |ls| == |signals|
    ensures forall i :: 0 <= i < |signals| ==> ls[i] == SignalLine(signals[i])
  {
    seq(|signals|, i requires 0 <= i < |signals| => SignalLine(signals[i]))
  }

  const SummaryMiddle := ". Evidence count: "
  const SummaryTail := ". Request specific evidence or risks."

  /** The answer for a route, after the header. */
  function Body(b: ExecutiveBrief, route: Route): string {
    match route
    case EvidenceRoute => Text.Join(SignalLines(b.dossier.keySignals), "\n")
    case RiskRoute =>
      b.scenarios.secondMostDangerous + ". WATCHLIST: " + Text.Join(b.strategy.watchlist, ", ")
    case StrategyRoute =>
      b.strategy.recommendedMove + ". Alternative: " + b.strategy.alternativeMove
      + ". Condition: " + b.strategy.flipCondition
    case SummaryRoute =>
      b.frame.sentence + SummaryMiddle + Text.NatToString(|b.dossier.keySignals|) + SummaryTail
  }

  /** `consultDossier`: without a brief, the fixed refusal; otherwise the answer
      of the route the lower-cased topic selects, under that route's header. */
  function ConsultDossier(brief: Option<ExecutiveBrief>, topic: string): (r: string)
    ensures brief.None? ==> r == NoDossierReply
    ensures brief.Some? ==>
      var route := Classify(Text.ToLower(topic));
      Text.StartsWith(r, Header(route)) && r[|Header(route)|..] == Body(brief.value, route)
  {
    if brief.None? then NoDossierReply
    else
      var route := Classify(Text.ToLower(topic));
      var r := Header(route) + Body(brief.value, route);
      assert r[..|Header(route)|] == Header(route);
      r
  }

  /** The four headers are pairwise distinct prefixes, and none is a prefix of
      the refusal, so the reply tells which route answered. */
  lemma RouteIsVisible(brief: Option<ExecutiveBrief>, topic: string, route: Route)
    requires brief.Some?
    ensures Text.StartsWith(ConsultDossier(brief, topic), Header(route))
            <==> route == Classify(Text.ToLower(topic))
  {
    var r := ConsultDossier(brief, topic);
    var actual := Classify(Text.ToLower(topic));
    assert Text.StartsWith(r, Header(actual));
    if Text.StartsWith(r, Header(route)) {
      assert Header(route)[0] == r[0] == Header(actual)[0];
    }
  }

  /** The router ignores the topic's case. */
  lemma ConsultIgnoresCase(brief: Option<ExecutiveBrief>, topic: string)
    ensures ConsultDossier(brief, Text.ToUpper(topic)) == ConsultDossier(brief, topic)
    ensures ConsultDossier(brief, Text.ToLower(topic)) == ConsultDossier(brief, topic)
  {
    Text.LowerIgnoresCase(topic);
  }

  /** The evidence answer lists every key signal as `bucket: content`, one per
      line and in order: splitting what follows the header at line breaks gives
      the signals back, provided none spans lines itself. */
  lemma EvidenceListsEverySignal(b: ExecutiveBrief, topic: string)
    requires Classify(Text.ToLower(topic)) == EvidenceRoute
    requires |b.dossier.keySignals| >= 1
    requires forall i :: 0 <= i < |b.dossier.keySignals| ==> '\n' !in SignalLine(b.dossier.keySignals[i])
    ensures Text.Split(ConsultDossier(Some(b), topic)[|EvidenceHeader|..], '\n') == SignalLines(b.dossier.keySignals)
  {
    Text.SplitJoin(SignalLines(b.dossier.keySignals), '\n');
  }

  /** The summary answer reports how many key signals the brief holds: the
      digits between its fixed texts read back as that count. */
  lemma SummaryReportsCount(b: ExecutiveBrief, topic: string)
    requires Classify(Text.ToLower(topic)) == SummaryRoute
    ensures var r := ConsultDossier(Some(b), topic);
      var lo := |SummaryHeader| + |b.frame.sentence| + |SummaryMiddle|;
      lo <= |r| - |SummaryTail|
      && (forall i :: lo <= i < |r| - |SummaryTail| ==> Text.IsDigit(r[i]))
      && Text.DigitsValue(r[lo..|r| - |SummaryTail|]) == |b.dossier.keySignals|
  {
    var r := ConsultDossier(Some(b), topic);
    var ds := Text.NatToString(|b.dossier.keySignals|);
    var lo := |SummaryHeader| + |b.frame.sentence| + |SummaryMiddle|;
    assert r == SummaryHeader + b.frame.sentence + SummaryMiddle + ds + SummaryTail;
    assert r[lo..|r| - |SummaryTail|] == ds;
    Text.NatToStringRoundTrip(|b.dossier.keySignals|);
  }
}

=== FILE: text.dfy ===
/** String operations of the JavaScript runtime that the application code relies on:
    `toUpperCase`/`toLowerCase` (ASCII letters only), `includes`, `startsWith`,
    `Array.prototype.join`, `String.prototype.split` on one character, and the
    decimal rendering of a non-negative integer inside a template literal. */
module Text {

  predicate IsUpperLetter(c: char) { 'A' <= c <= 'Z' }
  predicate IsLowerLetter(c: char) { 'a' <= c <= 'z' }

  function LowerChar(c: char): (r: char)
    ensures !IsUpperLetter(r)
    ensures IsUpperLetter(c) ==> IsLowerLetter(r) && r as int == c as int + 32
    ensures !IsUpperLetter(c) ==> r == c
  {
    if IsUpperLetter(c) then (c as int + 32) as char else c
  }

  function UpperChar(c: char): (r: char)
    ensures !IsLowerLetter(r)
    ensures IsLowerLetter(c) ==> IsUpperLetter(r) && r as int + 32 == c as int
    ensures !IsLowerLetter(c) ==> r == c
  {
    if IsLowerLetter(c) then (c as int - 32) as char else c
  }

  /** `s.toLowerCase()`: same length, each upper-case letter replaced by its lower-case
      counterpart, everything else kept. */
  function ToLower(s: string): (r: string)
    ensures |r| == |s|
    ensures forall i :: 0 <= i < |r| ==> !IsUpperLetter(r[i])
    ensures forall i :: 0 <= i < |s| && !IsUpperLetter(s[i]) ==> r[i] == s[i]
    ensures forall i :: 0 <= i < |s| && IsUpperLetter(s[i]) ==> r[i] as int == s[i] as int + 32
  {
    seq(|s|, i requires 0 <= i < |s| => LowerChar(s[i]))
  }

  /** `s.toUpperCase()`: same length, each lower-case letter replaced by its upper-case
      counterpart, everything else kept. */
  function ToUpper(s: string): (r: string)
    ensures |r| == |s|
    ensures forall i :: 0 <= i < |r| ==> !IsLowerLetter(r[i])
    ensures forall i :: 0 <= i < |s| && !IsLowerLetter(s[i]) ==> r[i] == s[i]
    ensures forall i :: 0 <= i < |s| && IsLowerLetter(s[i]) ==> r[i] as int + 32 == s[i] as int
  {
    seq(|s|, i requires 0 <= i < |s| => UpperChar(s[i]))
  }

  /** A string `toUpperCase` leaves alone. */
  predicate IsUpperCase(s: string) {
    forall i :: 0 <= i < |s| ==> !IsLowerLetter(s[i])
  }

  /** Upper-casing is idempotent, and its results are exactly the strings it fixes. */
  lemma UpperIsIdempotent(s: string)
    ensures IsUpperCase(ToUpper(s))
    ensures ToUpper(ToUpper(s)) == ToUpper(s)
    ensures IsUpperCase(s) <==> ToUpper(s) == s
  {
    if IsUpperCase(s) {
      assert forall i :: 0 <= i < |s| ==> ToUpper(s)[i] == s[i];
    }
  }

  /** Lower-casing forgets the original case: upper- or lower-casing first
      changes nothing. */
  lemma LowerIgnoresCase(s: string)
    ensures ToLower(ToUpper(s)) == ToLower(s)
    ensures ToLower(ToLower(s)) == ToLower(s)
  {
    assert forall i :: 0 <= i < |s| ==> ToLower(ToUpper(s))[i] == ToLower(s)[i];
  }

  /** `s.startsWith(p)`. */
  predicate StartsWith(s: string, p: string) {
    |p| <= |s| && s[..|p|] == p
  }

  /** `s.includes(t)`: `t` occurs at some position of `s`. */
  predicate Contains(s: string, t: string) {
    exists i :: 0 <= i <= |s| && StartsWith(s[i..], t)
  }

  /** `xs.join(sep)`: the empty list joins to "", a singleton to its element. */
  function Join(xs: seq<string>, sep: string): (r: string)
    ensures |xs| == 0 ==> r == ""
    ensures |xs| == 1 ==> r == xs[0]
    ensures |xs| > 1 ==> |r| >= |xs[0]| + |sep| && r[..|xs[0]|] == xs[0] && r[|xs[0]|..|xs[0]| + |sep|] == sep
  {
    if |xs| == 0 then ""
    else if |xs| == 1 then xs[0]
    else xs[0] + sep + Join(xs[1..], sep)
  }

  /** A character that is in no piece and not in the separator is not in the join. */
  lemma {:induction false} JoinAvoids(xs: seq<string>, sep: string, c: char)
    requires c !in sep
    requires forall i :: 0 <= i < |xs| ==> c !in xs[i]
    ensures c !in Join(xs, sep)
    decreases |xs|
  {
    if |xs| > 1 {
      JoinAvoids(xs[1..], sep, c);
      assert Join(xs, sep) == xs[0] + sep + Join(xs[1..], sep);
    }
  }

  /** `s.split(c)` for a one-character separator: the pieces between occurrences of `c`. */
  function Split(s: string, c: char): (r: seq<string>)
    ensures |r| >= 1
    decreases |s|
  {
    if |s| == 0 then [""]
    else
      var rest := Split(s[1..], c);
      if s[0] == c then [""] + rest
      else [[s[0]] + rest[0]] + rest[1..]
  }

  /** Splitting a separator-free prefix glued onto the rest extends the first piece only. */
  lemma {:induction false} SplitPrefix(a: string, b: string, c: char)
    requires c !in a
    ensures Split(a + b, c) == [a + Split(b, c)[0]] + Split(b, c)[1..]
    decreases |a|
  {
    if |a| == 0 {
      assert a + b == b;
      assert a + Split(b, c)[0] == Split(b, c)[0];
    } else {
      assert (a + b)[1..] == a[1..] + b;
      SplitPrefix(a[1..], b, c);
      assert [a[0]] + (a[1..] + Split(b, c)[0]) == a + Split(b, c)[0];
    }
  }

  /** Splitting undoes joining, provided no piece contains the separator. */
  lemma {:induction false} SplitJoin(xs: seq<string>, c: char)
    requires |xs| >= 1
    requires forall i :: 0 <= i < |xs| ==> c !in xs[i]
    ensures Split(Join(xs, [c]), c) == xs
    decreases |xs|
  {
    if |xs| == 1 {
      SplitPrefix(xs[0], "", c);
      assert xs[0] + "" == xs[0];
    } else {
      var tail := Join(xs[1..], [c]);
      SplitJoin(xs[1..], c);
      assert Split([c] + tail, c) == [""] + xs[1..];
      SplitPrefix(xs[0], [c] + tail, c);
      assert xs[0] + [c] + tail == xs[0] + ([c] + tail);
      assert xs[0] + "" == xs[0];
      assert [xs[0]] + xs[1..] == xs;
    }
  }

  function DigitChar(d: nat): char
    requires d < 10
  {
    "0123456789"[d]
  }

  predicate IsDigit(c: char) { '0' <= c <= '9' }

  function DigitValue(c: char): nat
    requires IsDigit(c)
  {
    (c as int - '0' as int) as nat
  }

  /** The decimal text JavaScript produces for a non-negative integer (`${n}`):
      digits only, no leading zero except for 0 itself. */
  function NatToString(n: nat): (r: string)
    ensures |r| >= 1
    ensures forall i :: 0 <= i < |r| ==> IsDigit(r[i])
    ensures r[0] == '0' ==> n == 0
    decreases n
  {
    if n < 10 then [DigitChar(n)] else NatToString(n / 10) + [DigitChar(n % 10)]
  }

  /** The value of a string of decimal digits. */
  function DigitsValue(s: string): nat
    requires forall i :: 0 <= i < |s| ==> IsDigit(s[i])
    decreases |s|
  {
    if |s| == 0 then 0 else DigitsValue(s[..|s| - 1]) * 10 + DigitValue(s[|s| - 1])
  }

  /** Reading the rendered digits back gives the number: the rendering loses nothing. */
  lemma {:induction false} NatToStringRoundTrip(n: nat)
    ensures DigitsValue(NatToString(n)) == n
    decreases n
  {
    if n < 10 {
      DigitRoundTrip(n);
    } else {
      NatToStringRoundTrip(n / 10);
      DigitRoundTrip(n % 10);
      var s := NatToString(n);
      assert s[..|s| - 1] == NatToString(n / 10) && s[|s| - 1] == DigitChar(n % 10);
      DigitsValueSnoc(s, n / 10, n % 10);
    }
  }

  lemma DigitRoundTrip(d: nat)
    requires d < 10
    ensures IsDigit(DigitChar(d)) && DigitValue(DigitChar(d)) == d
  {
  }

  /** The last digit adds its value to ten times the value of the others. */
  lemma DigitsValueSnoc(s: string, q: nat, d: nat)
    requires |s| > 0 && forall i :: 0 <= i < |s| ==> IsDigit(s[i])
    requires DigitsValue(s[..|s| - 1]) == q && DigitValue(s[|s| - 1]) == d
    ensures DigitsValue(s) == q * 10 + d
  {
  }

  /** Different numbers render differently. */
  lemma NatToStringInjective(m: nat, n: nat)
    requires NatToString(m) == NatToString(n)
    ensures m == n
  {
    NatToStringRoundTrip(m);
    NatToStringRoundTrip(n);
  }
}

=== FILE: types.dfy ===
/** The shared records of the application: the executive brief, the deep dossier
    and the enumerated UI state (types.ts). Field names follow the JSON keys in
    Dafny's camel case (`target_name` is `targetName`; the key `type`, a Dafny
    keyword, is `kind`). */
module Types {

  /** One piece of evidence, tagged with its intelligence bucket. */
  datatype Signal = Signal(bucket: string, content: string)

  datatype Intent = Intent(kind: string, contextLabel: string)

  datatype Frame = Frame(sentence: string, whatChanged: string, whyItMatters: string)

  datatype Scenarios = Scenarios(mostLikely: string, secondMostDangerous: string)

  datatype Strategy = Strategy(
    recommendedMove: string,
    alternativeMove: string,
    flipCondition: string,
    watchlist: seq<string>)

  datatype Evidence = Evidence(keySignals: seq<Signal>)

  /** `band` is declared as "LOW" | "MEDIUM" | "HIGH", but any non-empty string
      the server sends is kept, so it is a plain string here. */
  datatype Confidence = Confidence(band: string, resolvingSignals: seq<string>)

  datatype ExecutiveBrief = ExecutiveBrief(
    targetName: string,
    intent: Intent,
    frame: Frame,
    scenarios: Scenarios,
    strategy: Strategy,
    dossier: Evidence,
    confidence: Confidence)

  /** A headline figure; the JSON key `label` (a Dafny keyword) is `name`. */
  datatype Metric = Metric(name: string, value: string)

  /** One report section: a title, its paragraphs and its headline figures. */
  datatype Section = Section(title: string, content: seq<string>, metrics: seq<Metric>)

  datatype DeepDossier = DeepDossier(isReady: bool, sections: seq<Section>, sources: seq<string>)

  /** The application's visual/interaction state. */
  datatype UIState = Idle | Listening | Thinking | Speaking | Analyzing {

    /** The string value the enum member carries at run time. */
    function Tag(): string {
      match this
      case Idle => "IDLE"
      case Listening => "LISTENING"
      case Thinking => "THINKING"
      case Speaking => "SPEAKING"
      case Analyzing => "ANALYZING"
    }
  }
}

=== FILE: visual.dfy ===
/** The reactive black-hole visual (components/BlackHole.tsx), reduced to the
    numbers it keeps: the state-to-target mapper, the live values bound to the
    shader uniforms and mesh transforms, and the per-frame step that eases the
    live values toward the targets, pulses the core and advances the rotations.

    The loop's clock, `Math.sin` and the scene library are not part of the
    model: each frame takes `delta` and `elapsed` as numbers and `sin` as a
    function argument; the properties assume only that `sin` stays in [-1, 1]. */
module Visual {
  import opened Types
  import Seqs

  /** An RGB colour with channels in the library's [0, 1] scale. */
  datatype Color = Color(r: real, g: real, b: real)

  datatype Channel = R | G | B

  function Chan(c: Color, ch: Channel): real {
    match ch
    case R => c.r
    case G => c.g
    case B => c.b
  }

  predicate InUnitCube(c: Color) {
    0.0 <= c.r <= 1.0 && 0.0 <= c.g <= 1.0 && 0.0 <= c.b <= 1.0
  }

  /** `color.set(0xRRGGBB)`: each byte of the 24-bit value divided by 255. */
  function Hex(h: int): (c: Color)
    requires 0 <= h < 0x100_0000
    ensures InUnitCube(c)
  {
    Color((h / 0x1_0000) as real / 255.0, ((h / 0x100) % 0x100) as real / 255.0, (h % 0x100) as real / 255.0)
  }

  /** The 24-bit value a colour with whole-byte channels was set from. */
  function ToHex(c: Color): int {
    (c.r * 255.0).Floor * 0x1_0000 + (c.g * 255.0).Floor * 0x100 + (c.b * 255.0).Floor
  }

  /** Decoding a hex colour loses nothing: the value can be read back. */
  lemma HexRoundTrip(h: int)
    requires 0 <= h < 0x100_0000
    ensures ToHex(Hex(h)) == h
  {
    var c := Hex(h);
    assert (c.r * 255.0).Floor == h / 0x1_0000;
    assert (c.g * 255.0).Floor == (h / 0x100) % 0x100;
    assert (c.b * 255.0).Floor == h % 0x100;
  }

  /** The disk's four colour stops, from the inner edge outwards. */
  datatype Palette = Palette(hot: Color, mid1: Color, mid2: Color, outer: Color)

  datatype Slot = Hot | Mid1 | Mid2 | Outer

  function Pick(p: Palette, slot: Slot): Color {
    match slot
    case Hot => p.hot
    case Mid1 => p.mid1
    case Mid2 => p.mid2
    case Outer => p.outer
  }

  /** What a UI state asks the visual to look like. `pulse`, `autoRotateSpeed`
      and `glitchPass` take effect at once; the others are eased toward. */
  datatype Targets = Targets(
    palette: Palette,
    flowSpeed: real,
    glitch: real,
    pulse: real,
    autoRotateSpeed: real,
    glitchPass: bool)

  /** Cyan, fast spin, slight breathing pulse. */
  const ListeningTargets: Targets :=
    Targets(Palette(Hex(0xccffff), Hex(0x00d2ff), Hex(0x0044ff), Hex(0x000033)), 0.8, 0.0, 0.2, 2.0, false)

  /** Orange, strong pulse. */
  const SpeakingTargets: Targets :=
    Targets(Palette(Hex(0xffeedd), Hex(0xff7832), Hex(0xff3300), Hex(0x331100)), 0.3, 0.0, 0.8, 0.5, false)

  /** Purple, slow, subtle glitch (shared by ANALYZING and THINKING). */
  const ComputingTargets: Targets :=
    Targets(Palette(Hex(0xffddff), Hex(0xd400ff), Hex(0x6600cc), Hex(0x110022)), 0.1, 0.3, 0.0, 0.2, true)

  /** Dim blue, dormant: IDLE and every value the switch does not recognise. */
  const DormantTargets: Targets :=
    Targets(Palette(Hex(0x333333), Hex(0x4444ff), Hex(0x000033), Hex(0x000000)), 0.1, 0.0, 0.0, 0.5, false)

  predicate IsComputing(value: string) {
    value == Analyzing.Tag() || value == Thinking.Tag()
  }

  /** `updateStateTargets`: a `switch` on the state's run-time value. It is total:
      any value gets a bundle, the unrecognised ones the IDLE bundle. */
  function TargetsFor(value: string): (t: Targets)
    ensures t.glitchPass <==> IsComputing(value)
    ensures t.glitch == (if IsComputing(value) then 0.3 else 0.0)
    ensures t.pulse == (if value == Listening.Tag() then 0.2 else if value == Speaking.Tag() then 0.8 else 0.0)
    ensures 0.1 <= t.flowSpeed <= 0.8
  {
    if value == Listening.Tag() then ListeningTargets
    else if value == Speaking.Tag() then SpeakingTargets
    else if IsComputing(value) then ComputingTargets
    else DormantTargets
  }

  /** The IDLE entry and the `default` branch are the same bundle, and ANALYZING
      and THINKING are indistinguishable. */
  lemma DefaultIsIdle(value: string)
    requires forall s: UIState :: value != s.Tag()
    ensures TargetsFor(value) == TargetsFor(Idle.Tag())
    ensures TargetsFor(Analyzing.Tag()) == TargetsFor(Thinking.Tag())
  {
    assert value != Idle.Tag() && value != Listening.Tag() && value != Speaking.Tag();
    assert value != Analyzing.Tag() && value != Thinking.Tag();
  }

  /** Every bundle the mapper can produce. */
  predicate IsTableEntry(t: Targets) {
    t == ListeningTargets || t == SpeakingTargets || t == ComputingTargets || t == DormantTargets
  }

  /** The values the loop actually binds to uniforms and transforms. */
  datatype Live = Live(
    palette: Palette,
    flowSpeed: real,
    glitch: real,
    coreScale: real,
    horizonScale: real,
    diskRotation: real,
    starRotation: real)

  datatype Scene = Scene(targets: Targets, live: Live)

  /** The disk material's initial uniforms, the glitch intensity, and the meshes'
      initial transforms (both spheres start at scale 1). */
  const InitialPalette: Palette := Palette(Hex(0xffffff), Hex(0xff00ff), Hex(0x00ffff), Hex(0x3939f5))
  const InitialLive: Live := Live(InitialPalette, 0.25, 0.0, 1.0, 1.0, 0.0, 0.0)

  /** On mount the targets are set from the current state before the first frame. */
  function Mount(value: string): (sc: Scene)
    ensures sc.live == InitialLive && IsTableEntry(sc.targets)
  {
    Scene(TargetsFor(value), InitialLive)
  }

  /** A state change: the whole target bundle is replaced in one step; live values
      are never written by the mapper. */
  function Retarget(sc: Scene, value: string): (r: Scene)
    ensures r.live == sc.live
    ensures IsTableEntry(r.targets)
    ensures r.targets.glitchPass <==> IsComputing(value)
  {
    sc.(targets := TargetsFor(value))
  }

  /** The mapper has no memory: setting the same state twice is setting it once,
      and after several changes only the last one matters. */
  lemma RetargetLastWins(sc: Scene, a: string, b: string)
    ensures Retarget(Retarget(sc, a), b) == Retarget(sc, b)
    ensures Retarget(Retarget(sc, a), a) == Retarget(sc, a)
  {
  }

  /** `x is between a and b`, in either order. */
  predicate Between(x: real, a: real, b: real) {
    (a <= x <= b) || (b <= x <= a)
  }

  function Dist(x: real, y: real): real {
    if x <= y then y - x else x - y
  }

  /** One smoothing step, `cur += (tgt - cur) * k` with `k = delta * rate`:
      the gap to the target is scaled by `1 - k`. */
  function Approach(cur: real, tgt: real, k: real): (r: real)
    ensures r - tgt == (1.0 - k) * (cur - tgt)
  {
    cur + (tgt - cur) * k
  }

  /** For `0 <= k <= 1` a smoothing step lands between the old value and the
      target, no further from the target than before. */
  lemma ApproachBetween(cur: real, tgt: real, k: real)
    requires 0.0 <= k <= 1.0
    ensures Between(Approach(cur, tgt, k), cur, tgt)
    ensures Dist(Approach(cur, tgt, k), tgt) <= Dist(cur, tgt)
  {
    var r := Approach(cur, tgt, k);
    var g := if cur <= tgt then tgt - cur else cur - tgt;
    MulNonNegative(g, k);
    MulNonNegative(g, 1.0 - k);
    if cur <= tgt {
      assert r - cur == g * k && tgt - r == g * (1.0 - k);
    } else {
      assert cur - r == g * k && r - tgt == g * (1.0 - k);
    }
  }

  /** With a step larger than one (a long frame: `delta > 1 / rate`) the value
      lands strictly on the far side of the target. */
  lemma ApproachOvershoots(cur: real, tgt: real, k: real)
    requires k > 1.0 && cur != tgt
    ensures !Between(Approach(cur, tgt, k), cur, tgt)
  {
    var r := Approach(cur, tgt, k);
    if cur < tgt {
      PastTarget(r - tgt, tgt - cur, k - 1.0);
    } else {
      PastTarget(tgt - r, cur - tgt, k - 1.0);
    }
  }

  /** The arithmetic of an overshoot: a gap `g > 0` scaled by `-e` with `e > 0`
      changes sign. */
  lemma PastTarget(x: real, g: real, e: real)
    requires g > 0.0 && e > 0.0 && x == e * g
    ensures x > 0.0
  {
    MulPositive(e, g);
  }

  /** `color.lerp(target, k)`: each channel approaches independently. */
  function ApproachColor(c: Color, t: Color, k: real): (r: Color)
    ensures forall ch :: Chan(r, ch) - Chan(t, ch) == (1.0 - k) * (Chan(c, ch) - Chan(t, ch))
  {
    Color(Approach(c.r, t.r, k), Approach(c.g, t.g, k), Approach(c.b, t.b, k))
  }

  function ApproachPalette(p: Palette, t: Palette, k: real): (r: Palette)
    ensures forall slot :: Pick(r, slot) == ApproachColor(Pick(p, slot), Pick(t, slot), k)
  {
    Palette(ApproachColor(p.hot, t.hot, k), ApproachColor(p.mid1, t.mid1, k),
            ApproachColor(p.mid2, t.mid2, k), ApproachColor(p.outer, t.outer, k))
  }

  const GlitchRate: real := 5.0
  const BlendRate: real := 2.0
  const ScaleRate: real := 5.0
  const HorizonRest: real := 1.02

  /** A smoothing step for a frame of `delta` seconds at `rate` per second. */
  function Ease(cur: real, tgt: real, delta: real, rate: real): (r: real)
    ensures r - tgt == (1.0 - delta * rate) * (cur - tgt)
  {
    Approach(cur, tgt, delta * rate)
  }

  /** A sphere's scale while pulsing: its rest size plus the sine term `(pulse - 1) * a`. */
  function Pulsed(rest: real, s: real, a: real): real {
    rest + ((s * 0.1 + 1.0) - 1.0) * a
  }

  /** One `animate` frame. Glitch intensity eases at rate 5, flow speed and colours
      at rate 2. With a positive pulse amplitude the two spheres are scaled by the
      sine of `6 * elapsed` (the horizon 0.02 above the core); with none they ease
      back to 1 and 1.02 at rate 5. The disk turns by `0.4 * delta` times the flow
      speed just computed, the starfield by `0.02 * delta`. Targets are read only. */
  function Animate(sc: Scene, delta: real, elapsed: real, sin: real -> real): (r: Scene)
    ensures r.targets == sc.targets
    ensures r.live == Frame(sc.live, sc.targets, delta, sin(elapsed * 6.0))
  {
    Scene(sc.targets, Frame(sc.live, sc.targets, delta, sin(elapsed * 6.0)))
  }

  /** The live values after one frame toward targets `t`, with `s` the sine of
      `6 * elapsed` that drives the pulse. */
  function Frame(cur: Live, t: Targets, delta: real, s: real): (r: Live)
    ensures r.glitch - t.glitch == (1.0 - delta * GlitchRate) * (cur.glitch - t.glitch)
    ensures r.flowSpeed - t.flowSpeed == (1.0 - delta * BlendRate) * (cur.flowSpeed - t.flowSpeed)
    ensures r.palette == ApproachPalette(cur.palette, t.palette, delta * BlendRate)
    ensures t.pulse > 0.0 ==> r.coreScale == 1.0 + 0.1 * s * t.pulse
    ensures t.pulse > 0.0 ==> r.horizonScale == r.coreScale + 0.02
    ensures r.diskRotation - cur.diskRotation == 0.4 * delta * r.flowSpeed
    ensures r.starRotation - cur.starRotation == delta * 0.02
  {
    var speed := Ease(cur.flowSpeed, t.flowSpeed, delta, BlendRate);
    Live(ApproachPalette(cur.palette, t.palette, delta * BlendRate),
         speed,
         Ease(cur.glitch, t.glitch, delta, GlitchRate),
         SphereScale(cur.coreScale, 1.0, t.pulse, s, delta),
         SphereScale(cur.horizonScale, HorizonRest, t.pulse, s, delta),
         Turn(cur.diskRotation, delta, speed),
         cur.starRotation + delta * 0.02)
  }

  /** Without a pulse both spheres ease back to their rest sizes at rate 5. */
  lemma FrameSettles(cur: Live, t: Targets, delta: real, s: real)
    requires t.pulse <= 0.0
    ensures Frame(cur, t, delta, s).coreScale - 1.0 == (1.0 - delta * ScaleRate) * (cur.coreScale - 1.0)
    ensures Frame(cur, t, delta, s).horizonScale - HorizonRest == (1.0 - delta * ScaleRate) * (cur.horizonScale - HorizonRest)
  {
    var r := Frame(cur, t, delta, s);
    assert r.coreScale == SphereScale(cur.coreScale, 1.0, t.pulse, s, delta);
    assert r.horizonScale == SphereScale(cur.horizonScale, HorizonRest, t.pulse, s, delta);
  }

  /** A sphere's scale after a frame: pulsing about its rest size when the
      amplitude is positive, easing back to it at rate 5 otherwise. */
  function SphereScale(cur: real, rest: real, pulse: real, s: real, delta: real): (r: real)
    ensures pulse > 0.0 ==> r == rest + 0.1 * s * pulse
    ensures pulse <= 0.0 ==> r - rest == (1.0 - delta * ScaleRate) * (cur - rest)
  {
    if pulse > 0.0 then Pulsed(rest, s, pulse) else Approach(cur, rest, delta * ScaleRate)
  }

  /** The disk's rotation after a frame at flow speed `speed`. */
  function Turn(rotation: real, delta: real, speed: real): (r: real)
    ensures r - rotation == 0.4 * delta * speed
  {
    rotation + delta * 0.1 * speed * 4.0
  }

  lemma MulPositive(a: real, b: real)
    requires a > 0.0 && b > 0.0
    ensures a * b > 0.0
  {
  }

  lemma MulNonNegative(a: real, b: real)
    requires a >= 0.0 && b >= 0.0
    ensures a * b >= 0.0
  {
  }

  /** A pulsing sphere stays within a tenth of the amplitude of its rest size,
      for a sine value in [-1, 1] and a non-negative amplitude. */
  lemma PulsedBounds(rest: real, s: real, a: real)
    requires -1.0 <= s <= 1.0 && a >= 0.0
    ensures rest - 0.1 * a <= Pulsed(rest, s, a) <= rest + 0.1 * a
  {
    assert Pulsed(rest, s, a) == rest + 0.1 * (s * a);
    MulNonNegative(1.0 - s, a);
    MulNonNegative(1.0 + s, a);
  }

  /** The pulse: with amplitude `a > 0` the core scale stays within `1 +- a/10`
      and the horizon is always 0.02 larger; with `a = 0` both ease toward their
      resting sizes without passing them. */
  lemma PulseScale(sc: Scene, delta: real, elapsed: real, sin: real -> real)
    requires -1.0 <= sin(elapsed * 6.0) <= 1.0
    requires 0.0 <= delta * ScaleRate <= 1.0
    ensures var a := sc.targets.pulse; var r := Animate(sc, delta, elapsed, sin).live;
      (a > 0.0 ==> 1.0 - 0.1 * a <= r.coreScale <= 1.0 + 0.1 * a && r.horizonScale == r.coreScale + 0.02)
      && (a <= 0.0 ==> Between(r.coreScale, sc.live.coreScale, 1.0)
                       && Between(r.horizonScale, sc.live.horizonScale, HorizonRest))
  {
    var a := sc.targets.pulse;
    if a > 0.0 {
      PulsedBounds(1.0, sin(elapsed * 6.0), a);
    } else {
      ApproachBetween(sc.live.coreScale, 1.0, delta * ScaleRate);
      ApproachBetween(sc.live.horizonScale, HorizonRest, delta * ScaleRate);
    }
  }

  // ---------------------------------------------------------------------------
  // The convex hull the live values are confined to.

  /** Every colour a slot is ever given: its initial uniform and its four table entries. */
  function SlotPoints(slot: Slot): (ps: seq<Color>)
    ensures |ps| == 5
  {
    [Pick(InitialPalette, slot), Pick(ListeningTargets.palette, slot), Pick(SpeakingTargets.palette, slot),
     Pick(ComputingTargets.palette, slot), Pick(DormantTargets.palette, slot)]
  }

  /** Convex weights over a slot's five given colours: non-negative, summing to one. */
  predicate IsWeights(w: seq<real>) {
    |w| == 5 && (forall i :: 0 <= i < 5 ==> w[i] >= 0.0) && w[0] + w[1] + w[2] + w[3] + w[4] == 1.0
  }

  function MixChan(ps: seq<Color>, w: seq<real>, ch: Channel): real
    requires |ps| == 5 && |w| == 5
  {
    w[0] * Chan(ps[0], ch) + w[1] * Chan(ps[1], ch) + w[2] * Chan(ps[2], ch)
    + w[3] * Chan(ps[3], ch) + w[4] * Chan(ps[4], ch)
  }

  /** The weighted mixture of five colours, channel by channel. */
  function Mix(ps: seq<Color>, w: seq<real>): Color
    requires |ps| == 5 && |w| == 5
  {
    Color(MixChan(ps, w, R), MixChan(ps, w, G), MixChan(ps, w, B))
  }

  /** The slot's convex hull: the mixtures of the colours it is ever given. */
  ghost predicate InSlotHull(c: Color, slot: Slot) {
    exists w :: IsWeights(w) && Mix(SlotPoints(slot), w) == c
  }

  ghost predicate PaletteInHull(p: Palette) {
    forall slot :: InSlotHull(Pick(p, slot), slot)
  }

  /** All weight on the `i`-th colour. */
  function Unit(i: nat): (w: seq<real>)
    requires i < 5
    ensures IsWeights(w)
  {
    [if i == 0 then 1.0 else 0.0, if i == 1 then 1.0 else 0.0, if i == 2 then 1.0 else 0.0,
     if i == 3 then 1.0 else 0.0, if i == 4 then 1.0 else 0.0]
  }

  /** Blending weights the way `lerp` blends colours. */
  function Blend(w: seq<real>, v: seq<real>, k: real): (u: seq<real>)
    requires |w| == 5 && |v| == 5
    ensures |u| == 5
  {
    [Approach(w[0], v[0], k), Approach(w[1], v[1], k), Approach(w[2], v[2], k),
     Approach(w[3], v[3], k), Approach(w[4], v[4], k)]
  }

  /** Each of a slot's given colours lies in the slot's hull. */
  lemma SlotPointInHull(slot: Slot, i: nat)
    requires i < 5
    ensures InSlotHull(SlotPoints(slot)[i], slot)
  {
    MixUnit(SlotPoints(slot), i);
  }

  /** All weight on one colour mixes to that colour. */
  lemma MixUnit(ps: seq<Color>, i: nat)
    requires |ps| == 5 && i < 5
    ensures Mix(ps, Unit(i)) == ps[i]
  {
  }

  /** Blending two sets of convex weights with `0 <= k <= 1` gives convex weights. */
  lemma BlendWeights(w: seq<real>, v: seq<real>, k: real)
    requires IsWeights(w) && IsWeights(v) && 0.0 <= k <= 1.0
    ensures IsWeights(Blend(w, v, k))
  {
    var u := Blend(w, v, k);
    forall i | 0 <= i < 5 ensures u[i] >= 0.0 {
      ApproachBetween(w[i], v[i], k);
    }
  }

  /** Mixing is linear: the mixture of blended weights is the blend of the mixtures. */
  lemma MixChanBlend(ps: seq<Color>, w: seq<real>, v: seq<real>, k: real, ch: Channel)
    requires |ps| == 5 && |w| == 5 && |v| == 5
    ensures MixChan(ps, Blend(w, v, k), ch) == Approach(MixChan(ps, w, ch), MixChan(ps, v, ch), k)
  {
  }

  lemma MixBlend(ps: seq<Color>, w: seq<real>, v: seq<real>, k: real)
    requires |ps| == 5 && |w| == 5 && |v| == 5
    ensures Mix(ps, Blend(w, v, k)) == ApproachColor(Mix(ps, w), Mix(ps, v), k)
  {
    MixChanBlend(ps, w, v, k, R);
    MixChanBlend(ps, w, v, k, G);
    MixChanBlend(ps, w, v, k, B);
  }

  lemma TablePaletteInHull(t: Targets)
    requires IsTableEntry(t)
    ensures PaletteInHull(t.palette)
  {
    forall slot: Slot ensures InSlotHull(Pick(t.palette, slot), slot) {
      var i := if t == ListeningTargets then 1 else if t == SpeakingTargets then 2
               else if t == ComputingTargets then 3 else 4;
      SlotPointInHull(slot, i);
      assert Pick(t.palette, slot) == SlotPoints(slot)[i];
    }
  }

  lemma InitialPaletteInHull()
    ensures PaletteInHull(InitialPalette)
  {
    forall slot: Slot ensures InSlotHull(Pick(InitialPalette, slot), slot) {
      SlotPointInHull(slot, 0);
    }
  }

  /** Blending a colour of a slot's hull toward another colour of it stays in the hull. */
  lemma ApproachStaysInHull(c: Color, t: Color, k: real, slot: Slot)
    requires InSlotHull(c, slot) && InSlotHull(t, slot) && 0.0 <= k <= 1.0
    ensures InSlotHull(ApproachColor(c, t, k), slot)
  {
    var ps := SlotPoints(slot);
    var w :| IsWeights(w) && Mix(ps, w) == c;
    var v :| IsWeights(v) && Mix(ps, v) == t;
    BlendWeights(w, v, k);
    MixBlend(ps, w, v, k);
  }

  /** What every reachable scene satisfies: the targets are a table entry, the
      flow speed is within [0.1, 0.8], the glitch intensity within [0, 0.3], every
      colour within its slot's convex hull, and the sphere scales within the pulse range. */
  ghost predicate Valid(sc: Scene) {
    && IsTableEntry(sc.targets)
    && 0.1 <= sc.live.flowSpeed <= 0.8
    && 0.0 <= sc.live.glitch <= 0.3
    && PaletteInHull(sc.live.palette)
    && 0.92 <= sc.live.coreScale <= 1.08
    && 0.94 <= sc.live.horizonScale <= 1.1
  }

  lemma MountValid(value: string)
    ensures Valid(Mount(value))
  {
    InitialPaletteInHull();
  }

  lemma RetargetValid(sc: Scene, value: string)
    requires Valid(sc)
    ensures Valid(Retarget(sc, value))
  {
  }

  /** A frame short enough for the fastest rate (`delta <= 1/5` s) keeps the scene
      valid: no live value leaves the hull of the values it is eased toward. */
  lemma AnimateValid(sc: Scene, delta: real, elapsed: real, sin: real -> real)
    requires Valid(sc)
    requires 0.0 <= delta && delta * GlitchRate <= 1.0
    requires -1.0 <= sin(elapsed * 6.0) <= 1.0
    ensures Valid(Animate(sc, delta, elapsed, sin))
  {
    var r := Animate(sc, delta, elapsed, sin);
    var k := delta * BlendRate;
    TablePaletteInHull(sc.targets);
    forall slot: Slot ensures InSlotHull(Pick(r.live.palette, slot), slot) {
      ApproachStaysInHull(Pick(sc.live.palette, slot), Pick(sc.targets.palette, slot), k, slot);
    }
    ApproachBetween(sc.live.glitch, sc.targets.glitch, delta * GlitchRate);
    ApproachBetween(sc.live.flowSpeed, sc.targets.flowSpeed, k);
    PulseScale(sc, delta, elapsed, sin);
  }

  /** With a non-negative frame time and flow speed the disk never turns backwards;
      it turns strictly forward while time passes and the disk flows. */
  lemma DiskRotationMonotone(sc: Scene, delta: real, elapsed: real, sin: real -> real)
    requires Valid(sc)
    requires 0.0 <= delta && delta * GlitchRate <= 1.0
    ensures Animate(sc, delta, elapsed, sin).live.diskRotation >= sc.live.diskRotation
    ensures delta > 0.0 ==> Animate(sc, delta, elapsed, sin).live.diskRotation > sc.live.diskRotation
  {
    var speed := Animate(sc, delta, elapsed, sin).live.flowSpeed;
    ApproachBetween(sc.live.flowSpeed, sc.targets.flowSpeed, delta * BlendRate);
    assert speed >= 0.1;
    assert delta * 0.1 * speed * 4.0 == 0.4 * (delta * speed);
    if delta > 0.0 {
      assert delta * speed > 0.0;
    }
  }

  /** The frame-length bound is needed: the frame time is the clock's delta and
      has no upper bound. A scene that has flowed at the LISTENING speed 0.8 and
      now targets the computing speed 0.1, given a 2-second frame, overshoots to
      a flow speed of -2 and turns the disk backwards by 1.6 rad. */
  lemma LongFrameReversesDisk(sc: Scene, elapsed: real, sin: real -> real)
    requires sc.targets == ComputingTargets && sc.live.flowSpeed == 0.8
    ensures Animate(sc, 2.0, elapsed, sin).live.flowSpeed == -2.0
    ensures Animate(sc, 2.0, elapsed, sin).live.diskRotation == sc.live.diskRotation - 1.6
  {
    var r := Animate(sc, 2.0, elapsed, sin).live;
    assert r.flowSpeed - 0.1 == (1.0 - 4.0) * (0.8 - 0.1);
  }

  /** Such a scene satisfies the invariant the short-frame lemmas assume: the
      mounted LISTENING scene with its flow at 0.8, switched to THINKING, is valid. */
  lemma LongFrameSceneValid(sc: Scene)
    requires sc == Retarget(Mount(Listening.Tag()).(live := InitialLive.(flowSpeed := 0.8)), Thinking.Tag())
    ensures Valid(sc) && sc.targets == ComputingTargets && sc.live.flowSpeed == 0.8
  {
    MountValid(Listening.Tag());
  }

  // ---------------------------------------------------------------------------
  // Runs: state changes and frames in any interleaving.

  datatype Input = SetState(value: string) | Tick(delta: real, elapsed: real)

  function Step(sc: Scene, i: Input, sin: real -> real): Scene {
    match i
    case SetState(v) => Retarget(sc, v)
    case Tick(d, e) => Animate(sc, d, e, sin)
  }

  function Run(sc: Scene, inputs: seq<Input>, sin: real -> real): Scene
    decreases |inputs|
  {
    if |inputs| == 0 then sc else Run(Step(sc, inputs[0], sin), inputs[1..], sin)
  }

  /** Frames no longer than 1/5 s, at which the sine is in [-1, 1]. */
  predicate ShortFrames(inputs: seq<Input>, sin: real -> real) {
    forall i :: 0 <= i < |inputs| && inputs[i].Tick? ==>
      0.0 <= inputs[i].delta && inputs[i].delta * GlitchRate <= 1.0
      && -1.0 <= sin(inputs[i].elapsed * 6.0) <= 1.0
  }

  /** Total simulated time of a run. */
  function Elapsed(inputs: seq<Input>): real
    decreases |inputs|
  {
    if |inputs| == 0 then 0.0
    else (if inputs[0].Tick? then inputs[0].delta else 0.0) + Elapsed(inputs[1..])
  }

  /** However state changes and frames interleave, the scene stays valid. */
  lemma {:induction false} RunValid(sc: Scene, inputs: seq<Input>, sin: real -> real)
    requires Valid(sc) && ShortFrames(inputs, sin)
    ensures Valid(Run(sc, inputs, sin))
    decreases |inputs|
  {
    if |inputs| > 0 {
      if inputs[0].SetState? {
        RetargetValid(sc, inputs[0].value);
      } else {
        AnimateValid(sc, inputs[0].delta, inputs[0].elapsed, sin);
      }
      assert ShortFrames(inputs[1..], sin) by {
        forall i | 0 <= i < |inputs[1..]| && inputs[1..][i].Tick?
          ensures 0.0 <= inputs[1..][i].delta && inputs[1..][i].delta * GlitchRate <= 1.0
          ensures -1.0 <= sin(inputs[1..][i].elapsed * 6.0) <= 1.0
        {
          assert inputs[1..][i] == inputs[i + 1];
        }
      }
      RunValid(Step(sc, inputs[0], sin), inputs[1..], sin);
    }
  }

  /** Rotation never resets: across any run the disk angle does not decrease. */
  lemma {:induction false} RunDiskRotationMonotone(sc: Scene, inputs: seq<Input>, sin: real -> real)
    requires Valid(sc) && ShortFrames(inputs, sin)
    ensures Run(sc, inputs, sin).live.diskRotation >= sc.live.diskRotation
    decreases |inputs|
  {
    if |inputs| > 0 {
      var next := Step(sc, inputs[0], sin);
      if inputs[0].SetState? {
        RetargetValid(sc, inputs[0].value);
      } else {
        AnimateValid(sc, inputs[0].delta, inputs[0].elapsed, sin);
        DiskRotationMonotone(sc, inputs[0].delta, inputs[0].elapsed, sin);
      }
      assert ShortFrames(inputs[1..], sin) by {
        forall i | 0 <= i < |inputs[1..]| && inputs[1..][i].Tick?
          ensures 0.0 <= inputs[1..][i].delta && inputs[1..][i].delta * GlitchRate <= 1.0
          ensures -1.0 <= sin(inputs[1..][i].elapsed * 6.0) <= 1.0
        {
          assert inputs[1..][i] == inputs[i + 1];
        }
      }
      RunDiskRotationMonotone(next, inputs[1..], sin);
    }
  }

  /** The starfield turns by 0.02 rad per second of simulated time, whatever the
      states along the way. */
  lemma {:induction false} RunStarRotation(sc: Scene, inputs: seq<Input>, sin: real -> real)
    ensures Run(sc, inputs, sin).live.starRotation == sc.live.starRotation + 0.02 * Elapsed(inputs)
    decreases |inputs|
  {
    if |inputs| > 0 {
      RunStarRotation(Step(sc, inputs[0], sin), inputs[1..], sin);
    }
  }

  /** The targets after a run are those of the last state change in it (or the
      initial ones when there was none): rapid toggling settles on the final state. */
  lemma {:induction false} RunTargetsFollowLastState(sc: Scene, inputs: seq<Input>, sin: real -> real, k: nat)
    requires k < |inputs| && inputs[k].SetState?
    requires forall j :: k < j < |inputs| ==> inputs[j].Tick?
    ensures Run(sc, inputs, sin).targets == TargetsFor(inputs[k].value)
    decreases |inputs|
  {
    if k == 0 {
      RunKeepsTargets(Step(sc, inputs[0], sin), inputs[1..], sin);
    } else {
      RunTargetsFollowLastState(Step(sc, inputs[0], sin), inputs[1..], sin, k - 1);
    }
  }

  /** Frames alone never change the targets. */
  lemma {:induction false} RunKeepsTargets(sc: Scene, inputs: seq<Input>, sin: real -> real)
    requires forall j :: 0 <= j < |inputs| ==> inputs[j].Tick?
    ensures Run(sc, inputs, sin).targets == sc.targets
    decreases |inputs|
  {
    if |inputs| > 0 {
      RunKeepsTargets(Step(sc, inputs[0], sin), inputs[1..], sin);
    }
  }

  // ---------------------------------------------------------------------------
  // Convergence under a held target.

  /** `n` smoothing steps of the same size toward a fixed target. */
  function Iterate(cur: real, tgt: real, k: real, n: nat): real
    decreases n
  {
    if n == 0 then cur else Iterate(Approach(cur, tgt, k), tgt, k, n - 1)
  }

  /** Held targets are approached monotonically: with a step in [0, 1] every
      iterate lies between the start and the target, and each further step is
      no further from the target than the one before. */
  lemma {:induction false} IterateBetween(cur: real, tgt: real, k: real, n: nat)
    requires 0.0 <= k <= 1.0
    ensures Between(Iterate(cur, tgt, k, n), cur, tgt)
    ensures Dist(Iterate(cur, tgt, k, n + 1), tgt) <= Dist(Iterate(cur, tgt, k, n), tgt)
    decreases n
  {
    var next := Approach(cur, tgt, k);
    ApproachBetween(cur, tgt, k);
    assert Iterate(cur, tgt, k, n + 1) == Iterate(next, tgt, k, n);
    if n > 0 {
      IterateBetween(next, tgt, k, n - 1);
      assert Iterate(cur, tgt, k, n) == Iterate(next, tgt, k, n - 1);
    }
  }

  /** A full step (`k = 1`, a frame of exactly `1 / rate` seconds) lands on the
      target, and later steps stay there. */
  lemma {:induction false} IterateArrives(cur: real, tgt: real, n: nat)
    requires n >= 1
    ensures Iterate(cur, tgt, 1.0, n) == tgt
    decreases n
  {
    var next := Approach(cur, tgt, 1.0);
    assert next == tgt;
    if n > 1 {
      IterateArrives(next, tgt, n - 1);
    }
  }
}

=== FILE: wrappers.dfy ===
/** Failure-compatible wrappers shared by the rest of the model.
    `Option` stands for a JavaScript value that may be `null`/`undefined`
    (an absent JSON field, a React state slot holding `null`). */
module Wrappers {

  datatype Option<+T> = None | Some(value: T) {

    /** The wrapped value, or `default` when absent (JavaScript's `x ?? default`). */
    function GetOr(default: T): T {
      match this
      case Some(v) => v
      case None => default
    }
  }

  /** The outcome of an operation that may throw: `Failure` carries the error message. */
  datatype Result<+R> = Success(value: R) | Failure(message: string)
}
